=== FILE: README.md ===
# UISizer: a verified model of the one-axis box sizer

This project models the layout core of the Halley engine's UI: `UISizer` and
`UISizerEntry` (`engine/core/src/ui/ui_sizer.cpp`). A sizer is a recursive tree.
It holds an ordered list of entries, and each entry wraps a leaf widget, a nested
sizer or nothing (a spacer). Each entry also carries a proportion weight, a border
(left, top, right, bottom) and alignment/fill flags. The sizer has four jobs:

- **Minimum size, bottom-up** (`computeMinimumSize`):
  - fixed entries are summed along the main axis;
  - the cross axis takes the maximum;
  - proportional entries are bounded by the largest "minimum size per unit of weight".
- **Placement, top-down** (`setRect`):
  - the spare main-axis space is split among proportional entries with a running-remainder floor;
  - each entry gets a cell that spans the full cross size less its own borders.
- **Per-entry placement** (`placeInside`): applies the fill flags and the alignment anchors, and snaps the position to whole pixels.
- **Tree operations**: `addElement` (and both `add` overloads), `addSpacer`, `addStretchSpacer`, `reparent`, `clear` and `size`.

The model is functional:

- The tree is the immutable datatype `Element = Widget(id, minSize) | Nested(Sizer) | Empty`.
- Coordinates are exact `real`s.
- `std::floor` is `.Floor`.
- `Vector2f::round` is `Round`, which rounds each coordinate as `std::round` does: to the nearest whole number, with halves away from zero.
- `setRect` returns the sequence of leaf `setRect` calls as `(widget id, rect)` placements.
- `reparent` returns the sequence of `addChild` calls.
- `clear` returns the emptied sizer, the sequence of `destroy` calls and the nested sizers it empties.

Files:

| file | module | contents |
|---|---|---|
| `geometry.dfy` | `Geometry` | vectors, axes, borders, rectangles, `Round`, `Max` |
| `sizer.dfy` | `Sizer` | the datatypes and every operation of the sizer |
| `minimum_size.dfy` | `MinimumSizeFacts` | reference sums, and the properties of `computeMinimumSize` |
| `split.dfy` | `SplitFacts` | the running-remainder split of the spare space |
| `placement.dfy` | `PlacementFacts` | cell geometry, cell order, and exact filling of the rectangle |
| `tree.dfy` | `TreeFacts` | whole-tree facts: which widgets are placed, pixel snapping, how the add operations change the minimum size |

The model splits `setRect`'s single loop into two passes:

1. `MainSizes` computes every cell's main-axis size.
2. `Cells` walks the position.

This is the same computation. The running `spare` and `totalProportion` depend only on the proportions and the minimum sizes, never on the position.

## Model

| member | source | states |
|---|---|---|
| Geometry.Round | engine/core/src/ui/ui_sizer.cpp:60 | a snapped coordinate is a whole number within half a unit of the unsnapped one. A coordinate exactly halfway between two whole numbers goes away from zero, so 2.5 becomes 3 and −2.5 becomes −3. Geometry.RoundSymmetric adds that rounding is symmetric about zero. |
| Sizer.EntryMinimumSize | engine/core/src/ui/ui_sizer.cpp:23-26 | an entry's minimum is zero for a spacer, the widget's own minimum for a widget, and the public minimum of a nested sizer. MinimumSizeFacts.CrossMinimumIsMaximum and MinimumSizeFacts.MinimumCoversEveryEntry state how the sizer's minimum bounds it. |
| Sizer.MinimumSize | engine/core/src/ui/ui_sizer.cpp:88-91 | the public minimum is `computeMinimumSize(true)`, and its cross size is never negative. MinimumSizeFacts.ProportionalCorrection relates it to the fixed-only minimum, and MinimumSizeFacts.MinimumCoversEveryEntry shows that it leaves room for every entry. |
| Sizer.ComputeMinimumSize | engine/core/src/ui/ui_sizer.cpp:93-136 | the cross size is never negative. The loop (`MinStep`, `MinLoop`) and the correction (`Corrected`) are stated by MinimumSizeFacts.MinLoopCross, MinLoopBiggest, CrossMinimumIsMaximum, FixedMainMinimum, GapTotalIsCount, ProportionalCorrection and ProportionalShareCoversAll. |
| Sizer.SetRect | engine/core/src/ui/ui_sizer.cpp:138-177 | `setRect` makes one recorded leaf `setRect` call per leaf widget slot of the tree. The split (`MainSizes`, `Spare`) is stated by the SplitFacts lemmas. The cells (`Cells`) are stated by PlacementFacts.CellShape, CellAdvance, CellsEnd and SetRectFillsMainAxis. The calls (`PlaceFrom`) are stated by TreeFacts.SetRectPlacesLeaves and SetRectSnapsToPixels. |
| Sizer.PlaceInside | engine/core/src/ui/ui_sizer.cpp:28-65 | `placeInside` makes one `setRect` call on the entry's element and none for a spacer. For a nested sizer that call is the sizer's own `setRect`, so the recorded calls are one per leaf widget slot below the entry. Sizer.PlacedRect states where the element goes. TreeFacts.PlaceInsidePlacesLeaves states which widgets are placed, in order. |
| Sizer.Size | engine/core/src/ui/ui_sizer.cpp:224-227 | the number of entries. Sizer.AddElement, AddSpacer and AddStretchSpacer each raise it by exactly one, and Sizer.Clear brings it to 0. |
| Sizer.Anchoring | engine/core/src/ui/ui_sizer.cpp:31-51 | the vertical anchor is 1 with Bottom, else 0.5 with CentreVertical, else 0. The horizontal anchor is 1 with Right, else 0.5 with CentreHorizontal, else 0. So a later flag on the same axis wins. |
| Sizer.PlacedRect | engine/core/src/ui/ui_sizer.cpp:28-60 | the element's size is the cell's size on a filled axis and its own minimum otherwise. Its top-left is on whole pixels. Within half a pixel, its top/left edge meets the cell's when unaligned, its bottom/right edge meets the cell's when Bottom/Right is set, and its centre meets the cell's when the centre flag is set and Right/Bottom is not. |
| TreeFacts.PlaceInsidePlacesLeaves | engine/core/src/ui/ui_sizer.cpp:62-64 | `placeInside` places exactly the leaf widget slots below the entry, one per slot, in order, and places nothing for an entry with no element |
| TreeFacts.SetRectPlacesLeaves | engine/core/src/ui/ui_sizer.cpp:138-177 | the recorded leaf `setRect` calls go to exactly the leaf widget slots of the tree, one per slot, in traversal order. A widget held in two slots gets two calls. The `setRect` call on a nested sizer (line 63) is the recursion and is not recorded. A spacer gets no call. |
| TreeFacts.SetRectSnapsToPixels | engine/core/src/ui/ui_sizer.cpp:59-63 | every widget placed anywhere in the tree gets a whole-pixel top-left corner, whatever the input rectangle |
| MinimumSizeFacts.MinLoopCross | engine/core/src/ui/ui_sizer.cpp:108-116 | the loop's cross total is at least its start and at least every entry's cross extent, and it equals one of these |
| MinimumSizeFacts.CrossMinimumIsMaximum | engine/core/src/ui/ui_sizer.cpp:105-134 | the cross-axis minimum is non-negative and at least every entry's minimum cross size plus both cross borders. It equals 0 or one of those values, and it is 0 for an empty sizer. |
| MinimumSizeFacts.MinLoopBiggest | engine/core/src/ui/ui_sizer.cpp:118-121 | the biggest per-unit minimum is at least every proportional entry's main size divided by its proportion, and it equals its start or one of those ratios |
| MinimumSizeFacts.FixedMainMinimum | engine/core/src/ui/ui_sizer.cpp:107-126 | without the proportional correction (`computeMinimumSize(false)`), the main minimum is the fixed entries' sizes plus every entry's main borders plus one gap between each two adjacent entries. Proportional entries add only their borders and gaps. |
| MinimumSizeFacts.GapTotalIsCount | engine/core/src/ui/ui_sizer.cpp:107-114 | the gap space of a run is the number of gaps times the gap. A run that starts the sizer has one gap fewer than it has entries. |
| MinimumSizeFacts.GapsOnlyBetweenEntries | engine/core/src/ui/ui_sizer.cpp:107-126 | N ≥ 1 fixed, borderless entries of main sizes s_i have a main minimum of Σ s_i + (N − 1)·gap |
| MinimumSizeFacts.ProportionalCorrection | engine/core/src/ui/ui_sizer.cpp:88-130 | the public overload's main size is the fixed-only main size plus biggestProportional·totalProportion, and its cross size is the same. With non-negative proportions it is never smaller. |
| MinimumSizeFacts.ProportionalShareCoversMinimum | engine/core/src/ui/ui_sizer.cpp:119-121 | for each proportional entry, biggestProportional·p is at least that entry's own main-axis minimum |
| MinimumSizeFacts.WeightBoundsProportionalMain | engine/core/src/ui/ui_sizer.cpp:119-121 | a bound b that is at least every proportional entry's per-unit minimum, times their summed weights, covers their summed main sizes |
| MinimumSizeFacts.ProportionalShareCoversAll | engine/core/src/ui/ui_sizer.cpp:119-130 | with non-negative proportions, the correction biggestProportional·totalProportion covers the summed main sizes of all proportional entries |
| MinimumSizeFacts.MinimumCoversEveryEntry | engine/core/src/ui/ui_sizer.cpp:93-136 | with non-negative proportions, the public minimum main size leaves room for every entry's own minimum, fixed or proportional, plus all borders and gaps |
| SplitFacts.SplitConsumesSpare | engine/core/src/ui/ui_sizer.cpp:164-169 | when every weight is 0 or above 0.0001, some entry is proportional and the spare is a whole number, the proportional cells together take exactly the spare |
| SplitFacts.SplitWithinSpare | engine/core/src/ui/ui_sizer.cpp:164-169 | a non-negative spare is never overdrawn: the proportional cells take at most the spare |
| SplitFacts.SplitCellWhole | engine/core/src/ui/ui_sizer.cpp:164-168 | every proportional cell is a whole number of pixels, for any spare, including the negative spare of a rectangle smaller than the minimum |
| SplitFacts.SplitCellNonNegative | engine/core/src/ui/ui_sizer.cpp:164-168 | with a non-negative spare, every proportional cell is non-negative |
| SplitFacts.FixedCellsKeepMinimum | engine/core/src/ui/ui_sizer.cpp:162-169 | a fixed entry's cell keeps the entry's own main-axis minimum size |
| SplitFacts.EqualWeightsExample | engine/core/src/ui/ui_sizer.cpp:164-169 | two weight-1 entries sharing a spare of 101 get 50 then 51, so no unit is dropped |
| SplitFacts.MinimumRectExample | engine/core/src/ui/ui_sizer.cpp:150-169 | in a rectangle exactly as long as the minimum size, two weight-1 widgets of minimum width 10 and 20 both get 20: a proportional cell is sized by the biggest per-unit minimum, not by its own minimum |
| PlacementFacts.CellShape | engine/core/src/ui/ui_sizer.cpp:170-173 | every cell spans the rectangle's cross size less that entry's own cross borders, whatever its flags. It takes its computed main size, and its cross start is the rectangle's plus its leading cross border. |
| PlacementFacts.CellAdvance | engine/core/src/ui/ui_sizer.cpp:170-175 | cells follow in list order along the main axis: cell i+1 starts after cell i ends, its trailing border, one gap and cell i+1's leading border |
| PlacementFacts.CellsEnd | engine/core/src/ui/ui_sizer.cpp:153-176 | after the last cell and its trailing border, the walk has advanced by every cell's main size, every main border and the gaps |
| PlacementFacts.CellSizesAccount | engine/core/src/ui/ui_sizer.cpp:150-169 | under the exactness conditions of SplitConsumesSpare, the cells' main sizes add up to the rectangle's main size less every main border and gap |
| PlacementFacts.SetRectFillsMainAxis | engine/core/src/ui/ui_sizer.cpp:138-177 | under the same conditions, the last cell plus its trailing border ends exactly at the rectangle's far edge |
| Sizer.AddElement | engine/core/src/ui/ui_sizer.cpp:214-217 | appends exactly one entry with the given element, proportion, border and flags. The kind, the gap and every earlier entry are kept. |
| Sizer.AddSpacer | engine/core/src/ui/ui_sizer.cpp:189-192 | appends one element-less, zero-weight entry whose border is `size` on the main-axis leading side and zero on the other three sides |
| Sizer.AddStretchSpacer | engine/core/src/ui/ui_sizer.cpp:194-197 | appends one element-less entry of weight p with no border and no flags |
| TreeFacts.AddElementLeaves | engine/core/src/ui/ui_sizer.cpp:179-217 | adding an element appends its leaves after the existing ones: a widget adds itself, a nested sizer adds its leaves and a spacer adds nothing |
| TreeFacts.AddSpacerMinimum | engine/core/src/ui/ui_sizer.cpp:189-192 | a spacer lengthens the minimum main size by its size, plus a gap unless it is the first entry, and leaves the cross size unchanged |
| TreeFacts.AddStretchSpacerMinimum | engine/core/src/ui/ui_sizer.cpp:194-197 | a stretch spacer of weight p adds a gap unless it is first and, when proportional entries are included, biggestProportional·p. The cross size is unchanged. |
| Sizer.Reparent | engine/core/src/ui/ui_sizer.cpp:199-212 | `reparent` makes one `addChild` call per leaf widget slot of the tree, in traversal order, after those made before. It never adds a nested sizer. |
| Sizer.Clear | engine/core/src/ui/ui_sizer.cpp:239-253 | `clear` makes one `destroy` call for each leaf widget slot of the tree, in traversal order. It clears every nested sizer, a nested sizer's own nested sizers first, and returns them in the order their `clear` calls finish. It leaves the sizer itself with its kind and gap and with no entries (size 0). |
| TreeFacts.EmptiedAreEmpty | engine/core/src/ui/ui_sizer.cpp:246-252 | every nested sizer `clear` reaches is left with no entries, at any depth |

## Left out

- Single-precision floats.
  - Coordinates, weights and totals are exact reals.
  - Float rounding in `totalProportion -= p` and in `std::floor` is not modelled.
  - The proportion threshold 0.0001f is the exact real 0.0001.
- Geometry.Round: assumes that `Vector2f::round` applies `std::round` to each coordinate (nearest whole number, halves away from zero). `Vector2f` is not part of this model.
- Widgets are opaque leaves with a given minimum size.
  - `UIWidget::computeMinimumSize` is the widget's given `minSize`.
  - `setRect`, `destroy` and `UIParent::addChild` are recorded as events in an output sequence.
  - Widgets are not simulated.
- `shared_ptr` ownership and `dynamic_pointer_cast` are replaced by the tagged `Element` datatype. Sharing of one widget between several trees is not modelled.
- Sizer.Clear: a nested sizer held in two slots (or in two trees) is modelled as two independent values. In the source, the second `clear()` of that shared object finds it already empty and destroys nothing. The model destroys its leaves again.
- The fill and alignment flags are a record of eight booleans. Their bit values live in a header that is not part of this model.
- The accessors `getProportion`, `getBorder`, `getFillFlags`, `getPointer`, `getType` and `operator[]` are plain field reads on the datatypes. The constructors are datatype construction.
- Sizer.SetRect requires every proportion in the tree to be non-negative.
  - With non-negative weights, the running total proportion stays positive whenever a proportional entry divides by it.
  - With negative weights it can reach zero first. With weights 1, −1, 1, for example, the third entry divides its share by a running total of 0.
  - The model does not follow that path.
- The exactness facts (SplitConsumesSpare, CellSizesAccount, SetRectFillsMainAxis) hold only under their stated conditions:
  - every weight is 0 or above 0.0001;
  - some entry is proportional;
  - the spare is a whole number.

  Without these, the floor can leave part of the spare unused. A weight between 0 and 0.0001 also counts in the total without receiving any space.
- No contract says that a proportional entry gets exactly its own minimum in a rectangle exactly as long as the minimum size. In such a rectangle each proportional entry gets biggestProportional·p, which can exceed its own minimum. SplitFacts.MinimumRectExample shows a case where it does.

=== FILE: geometry.dfy ===
/** Geometry primitives consumed by the sizer: 2D vectors, per-side borders and
    axis-aligned rectangles over exact reals, plus pixel snapping. */
module Geometry {

  /** A 2D vector; stands in for the engine's single-precision Vector2f. */
  datatype Vec2 = Vec2(x: real, y: real)
  {
    function Add(o: Vec2): Vec2 { Vec2(x + o.x, y + o.y) }

    function Sub(o: Vec2): Vec2 { Vec2(x - o.x, y - o.y) }
  }

  const Zero := Vec2(0.0, 0.0)

  /** Axis index: X is component 0, Y is component 1. */
  datatype Axis = X | Y

  function CrossAxis(a: Axis): (r: Axis)
    ensures r != a
  {
    if a == X then Y else X
  }

  /** Component `a` of `v` (the C++ `v[axis]`). */
  function Get(v: Vec2, a: Axis): real
  {
    if a == X then v.x else v.y
  }

  /** `v` with component `a` replaced; the other component is kept. */
  function With(v: Vec2, a: Axis, value: real): (r: Vec2)
    ensures Get(r, a) == value
    ensures Get(r, CrossAxis(a)) == Get(v, CrossAxis(a))
  {
    if a == X then Vec2(value, v.y) else Vec2(v.x, value)
  }

  /** The vector whose component on `a` is `along` and on the other axis is `across`. */
  function Compose(a: Axis, along: real, across: real): (r: Vec2)
    ensures Get(r, a) == along
    ensures Get(r, CrossAxis(a)) == across
  {
    if a == X then Vec2(along, across) else Vec2(across, along)
  }

  /** Insets on the four sides, in the engine's Vector4f order (left, top, right, bottom). */
  datatype Border = Border(left: real, top: real, right: real, bottom: real)

  const NoBorder := Border(0.0, 0.0, 0.0, 0.0)

  /** The leading inset on axis `a`: `border[a]`, i.e. left for X and top for Y. */
  function Leading(b: Border, a: Axis): real
  {
    if a == X then b.left else b.top
  }

  /** The trailing inset on axis `a`: `border[a + 2]`, i.e. right for X and bottom for Y. */
  function Trailing(b: Border, a: Axis): real
  {
    if a == X then b.right else b.bottom
  }

  /** `b` with `d` added to its leading inset on axis `a`; every other side is kept. */
  function AddLeading(b: Border, a: Axis, d: real): (r: Border)
    ensures Leading(r, a) == Leading(b, a) + d
    ensures Trailing(r, a) == Trailing(b, a)
    ensures Leading(r, CrossAxis(a)) == Leading(b, CrossAxis(a))
    ensures Trailing(r, CrossAxis(a)) == Trailing(b, CrossAxis(a))
  {
    if a == X then b.(left := b.left + d) else b.(top := b.top + d)
  }

  /** An axis-aligned rectangle given by its two corners (the engine's Rect4f). */
  datatype Rect = Rect(topLeft: Vec2, bottomRight: Vec2)
  {
    function Size(): Vec2 { bottomRight.Sub(topLeft) }
  }

  /** The rectangle at `pos` of extent `size`: `Rect4f(pos, pos + size)`. */
  function MakeRect(pos: Vec2, size: Vec2): (r: Rect)
    ensures r.topLeft == pos && r.Size() == size
  {
    Rect(pos, pos.Add(size))
  }

  predicate IsIntegral(x: real)
  {
    x == x.Floor as real
  }

  /** `a` lies within half a unit of `b` (rounding to the nearest integer may move it that far). */
  predicate Near(a: real, b: real)
  {
    b - 0.5 <= a <= b + 0.5
  }

  /** Snaps a coordinate to a whole pixel as `std::round` does: the nearest integer,
      with halves going away from zero. */
  function Round(x: real): (r: real)
    ensures IsIntegral(r)
    ensures Near(r, x)
    ensures IsIntegral(x + 0.5) ==> r == if x >= 0.0 then x + 0.5 else x - 0.5
  {
    if x >= 0.0 then HalfUp(x)
    else
      var h := HalfUp(-x);
      IntegralNegate(h);
      HalfwayNegate(x);
      -h
  }

  lemma IntegralNegate(a: real)
    requires IsIntegral(a)
    ensures IsIntegral(-a)
  {
    var n := a.Floor;
    assert -a == (-n) as real;
    IntIsIntegral(-n);
  }

  /** `x` is halfway between two whole numbers exactly when `-x` is. */
  lemma HalfwayNegate(x: real)
    ensures IsIntegral(x + 0.5) ==> IsIntegral(-x + 0.5)
  {
    if IsIntegral(x + 0.5) {
      var n := (x + 0.5).Floor;
      assert -x + 0.5 == (1 - n) as real;
      IntIsIntegral(1 - n);
    }
  }

  lemma IntIsIntegral(k: int)
    ensures IsIntegral(k as real)
  {
  }

  /** `floor(y + 1/2)`: the nearest integer to `y`, halves going up. */
  function HalfUp(y: real): (r: real)
    ensures IsIntegral(r)
    ensures y - 0.5 < r <= y + 0.5
    ensures IsIntegral(y + 0.5) ==> r == y + 0.5
  {
    var n := (y + 0.5).Floor;
    assert n as real <= y + 0.5 < n as real + 1.0;
    n as real
  }

  /** Rounding is symmetric about zero. */
  lemma RoundSymmetric(x: real)
    ensures Round(-x) == -Round(x)
  {
  }

  function Max(a: real, b: real): (r: real)
    ensures r >= a && r >= b
    ensures r == a || r == b
  {
    if a < b then b else a
  }
}

=== FILE: minimum_size.dfy ===
/** Properties of `computeMinimumSize`: the cross extent is a maximum, the main
    extent is a sum with gaps only between entries, and the proportional
    correction gives every proportional entry at least its own minimum. */
module MinimumSizeFacts {
  import opened Geometry
  import opened Sizer

  // ---------------------------------------------------------------------------
  // Reference definitions, independent of the loop
  // ---------------------------------------------------------------------------

  /** What entry `e` of minimum size `sz` needs across the main axis, borders included. */
  function CrossExtent(axis: Axis, e: Entry, sz: Vec2): real
  {
    Get(sz, CrossAxis(axis)) + Leading(e.border, CrossAxis(axis)) + Trailing(e.border, CrossAxis(axis))
  }

  /** The sum of the main-axis minimum sizes of the fixed entries. */
  function FixedMain(axis: Axis, es: seq<Entry>, sizes: seq<Vec2>): real
    requires |sizes| == |es|
    decreases |es|
  {
    if es == [] then 0.0
    else (if IsProportional(es[0].proportion) then 0.0 else Get(sizes[0], axis))
         + FixedMain(axis, es[1..], sizes[1..])
  }

  /** The sum of the main-axis minimum sizes of the proportional entries. */
  function ProportionalMain(axis: Axis, es: seq<Entry>, sizes: seq<Vec2>): real
    requires |sizes| == |es|
    decreases |es|
  {
    if es == [] then 0.0
    else (if IsProportional(es[0].proportion) then Get(sizes[0], axis) else 0.0)
         + ProportionalMain(axis, es[1..], sizes[1..])
  }

  /** The sum of the proportions of the proportional entries. */
  function ProportionalWeight(es: seq<Entry>): real
  {
    if es == [] then 0.0
    else (if IsProportional(es[0].proportion) then es[0].proportion else 0.0) + ProportionalWeight(es[1..])
  }

  /** The sum of all main-axis minimum sizes. */
  function MainSum(axis: Axis, sizes: seq<Vec2>): real
  {
    if sizes == [] then 0.0 else Get(sizes[0], axis) + MainSum(axis, sizes[1..])
  }

  /** The sum of the entries' own (gap-free) leading and trailing main-axis borders. */
  function MainBorders(axis: Axis, es: seq<Entry>): real
  {
    if es == [] then 0.0 else Leading(es[0].border, axis) + Trailing(es[0].border, axis) + MainBorders(axis, es[1..])
  }

  /** How many gaps a run of `n` entries contains: one fewer than entries when the run
      starts the sizer, otherwise one per entry. */
  function GapCount(first: bool, n: nat): nat
  {
    if n == 0 then 0 else if first then n - 1 else n
  }

  /** The gap space of a run of `n` entries: one `gap` in front of every entry except the
      one that starts the sizer. */
  function GapTotal(first: bool, n: nat, gap: real): real
  {
    if n == 0 then 0.0 else (if first then 0.0 else gap) + GapTotal(false, n - 1, gap)
  }

  /** The ratio "minimum main size per unit of proportion" of a proportional entry. */
  function PerUnit(axis: Axis, e: Entry, sz: Vec2): real
    requires IsProportional(e.proportion)
  {
    Get(sz, axis) / e.proportion
  }

  // ---------------------------------------------------------------------------
  // The loop against the reference definitions
  // ---------------------------------------------------------------------------

  lemma {:induction false} MinLoopCross(axis: Axis, gap: real, es: seq<Entry>, sizes: seq<Vec2>, first: bool, st: MinState)
    requires |sizes| == |es|
    ensures MinLoop(axis, gap, es, sizes, first, st).other >= st.other
    ensures forall i :: 0 <= i < |es| ==>
              MinLoop(axis, gap, es, sizes, first, st).other >= CrossExtent(axis, es[i], sizes[i])
    ensures || MinLoop(axis, gap, es, sizes, first, st).other == st.other
            || exists i :: 0 <= i < |es| && MinLoop(axis, gap, es, sizes, first, st).other == CrossExtent(axis, es[i], sizes[i])
    decreases |es|
  {
    if es != [] {
      var st' := MinStep(axis, gap, es[0], sizes[0], first, st);
      assert st'.other == Max(st.other, CrossExtent(axis, es[0], sizes[0]));
      MinLoopCross(axis, gap, es[1..], sizes[1..], false, st');
      var r := MinLoop(axis, gap, es, sizes, first, st);
      assert r == MinLoop(axis, gap, es[1..], sizes[1..], false, st');
      forall i | 0 <= i < |es|
        ensures r.other >= CrossExtent(axis, es[i], sizes[i])
      {
        if i > 0 {
          assert es[1..][i - 1] == es[i] && sizes[1..][i - 1] == sizes[i];
        }
      }
      if r.other != st.other && r.other != st'.other {
        var j :| 0 <= j < |es[1..]| && r.other == CrossExtent(axis, es[1..][j], sizes[1..][j]);
        assert es[1..][j] == es[j + 1] && sizes[1..][j] == sizes[j + 1];
      }
    }
  }

  lemma {:induction false} MinLoopMain(axis: Axis, gap: real, es: seq<Entry>, sizes: seq<Vec2>, first: bool, st: MinState)
    requires |sizes| == |es|
    ensures MinLoop(axis, gap, es, sizes, first, st).main
            == st.main + FixedMain(axis, es, sizes) + MainBorders(axis, es) + GapTotal(first, |es|, gap)
    decreases |es|
  {
    if es != [] {
      var st' := MinStep(axis, gap, es[0], sizes[0], first, st);
      MinLoopMain(axis, gap, es[1..], sizes[1..], false, st');
      MinStepMain(axis, gap, es[0], sizes[0], first, st);
      assert GapTotal(first, |es|, gap) == (if first then 0.0 else gap) + GapTotal(false, |es[1..]|, gap);
    }
  }

  /** One loop step adds the entry's fixed main size, its own main-axis borders and,
      unless it is first, the gap. */
  lemma MinStepMain(axis: Axis, gap: real, e: Entry, sz: Vec2, first: bool, st: MinState)
    ensures MinStep(axis, gap, e, sz, first, st).main
            == st.main + (if IsProportional(e.proportion) then 0.0 else Get(sz, axis))
               + (Leading(e.border, axis) + Trailing(e.border, axis)) + (if first then 0.0 else gap)
  {
  }

  /** The gap space is the number of gaps times the gap. */
  lemma {:induction false} GapTotalIsCount(first: bool, n: nat, gap: real)
    ensures GapTotal(first, n, gap) == GapCount(first, n) as real * gap
  {
    if n > 0 {
      GapTotalIsCount(false, n - 1, gap);
      if !first {
        TimesSuccessor((n - 1) as real, n as real, gap);
      }
    }
  }

  lemma {:induction false} MinLoopBiggest(axis: Axis, gap: real, es: seq<Entry>, sizes: seq<Vec2>, first: bool, st: MinState)
    requires |sizes| == |es|
    ensures MinLoop(axis, gap, es, sizes, first, st).biggestProportional >= st.biggestProportional
    ensures forall i :: 0 <= i < |es| && IsProportional(es[i].proportion) ==>
              MinLoop(axis, gap, es, sizes, first, st).biggestProportional >= PerUnit(axis, es[i], sizes[i])
    ensures || MinLoop(axis, gap, es, sizes, first, st).biggestProportional == st.biggestProportional
            || exists i :: 0 <= i < |es| && IsProportional(es[i].proportion) &&
                 MinLoop(axis, gap, es, sizes, first, st).biggestProportional == PerUnit(axis, es[i], sizes[i])
    decreases |es|
  {
    if es != [] {
      var st' := MinStep(axis, gap, es[0], sizes[0], first, st);
      MinLoopBiggest(axis, gap, es[1..], sizes[1..], false, st');
      var r := MinLoop(axis, gap, es, sizes, first, st);
      assert r == MinLoop(axis, gap, es[1..], sizes[1..], false, st');
      forall i | 0 <= i < |es| && IsProportional(es[i].proportion)
        ensures r.biggestProportional >= PerUnit(axis, es[i], sizes[i])
      {
        if i > 0 {
          assert es[1..][i - 1] == es[i] && sizes[1..][i - 1] == sizes[i];
        }
      }
      if r.biggestProportional != st.biggestProportional && r.biggestProportional != st'.biggestProportional {
        var j :| 0 <= j < |es[1..]| && IsProportional(es[1..][j].proportion) &&
                 r.biggestProportional == PerUnit(axis, es[1..][j], sizes[1..][j]);
        assert es[1..][j] == es[j + 1] && sizes[1..][j] == sizes[j + 1];
      }
    }
  }

  // ---------------------------------------------------------------------------
  // Properties of computeMinimumSize
  // ---------------------------------------------------------------------------

  /** The cross-axis minimum is the maximum of 0 and every entry's cross extent
      (its minimum cross size plus its two cross borders). */
  lemma CrossMinimumIsMaximum(s: Sizer, includeProportional: bool)
    ensures Get(ComputeMinimumSize(s, includeProportional), CrossAxis(MainAxis(s.kind))) >= 0.0
    ensures forall i :: 0 <= i < |s.entries| ==>
              Get(ComputeMinimumSize(s, includeProportional), CrossAxis(MainAxis(s.kind)))
              >= CrossExtent(MainAxis(s.kind), s.entries[i], EntryMinimumSize(s.entries[i]))
    ensures || Get(ComputeMinimumSize(s, includeProportional), CrossAxis(MainAxis(s.kind))) == 0.0
            || exists i :: 0 <= i < |s.entries| &&
                 Get(ComputeMinimumSize(s, includeProportional), CrossAxis(MainAxis(s.kind)))
                 == CrossExtent(MainAxis(s.kind), s.entries[i], EntryMinimumSize(s.entries[i]))
    ensures s.entries == [] ==> Get(ComputeMinimumSize(s, includeProportional), CrossAxis(MainAxis(s.kind))) == 0.0
  {
    var sizes := EntrySizes(s);
    MinLoopCross(MainAxis(s.kind), s.gap, s.entries, sizes, true, StartState);
  }

  /** Without the proportional correction, the main-axis minimum is the fixed entries'
      main sizes plus every entry's main borders plus one gap between each two entries. */
  lemma FixedMainMinimum(s: Sizer)
    ensures Get(ComputeMinimumSize(s, false), MainAxis(s.kind))
            == FixedMain(MainAxis(s.kind), s.entries, EntrySizes(s)) + MainBorders(MainAxis(s.kind), s.entries)
               + GapTotal(true, |s.entries|, s.gap)
  {
    MinLoopMain(MainAxis(s.kind), s.gap, s.entries, EntrySizes(s), true, StartState);
  }

  lemma {:induction false} FixedMainWhenAllFixed(axis: Axis, es: seq<Entry>, sizes: seq<Vec2>)
    requires |sizes| == |es|
    requires forall i :: 0 <= i < |es| ==> !IsProportional(es[i].proportion)
    ensures FixedMain(axis, es, sizes) == MainSum(axis, sizes)
    decreases |es|
  {
    if es != [] {
      assert forall i :: 0 <= i < |es[1..]| ==> es[1..][i] == es[i + 1];
      FixedMainWhenAllFixed(axis, es[1..], sizes[1..]);
    }
  }

  lemma {:induction false} NoBordersSumToZero(axis: Axis, es: seq<Entry>)
    requires forall i :: 0 <= i < |es| ==> es[i].border == NoBorder
    ensures MainBorders(axis, es) == 0.0
  {
    if es != [] {
      assert forall i :: 0 <= i < |es[1..]| ==> es[1..][i] == es[i + 1];
      NoBordersSumToZero(axis, es[1..]);
    }
  }

  /** Gaps go only between entries: N fixed, borderless entries of main sizes s_i give
      a main-axis minimum of the sum of the s_i plus (N - 1) gaps. */
  lemma GapsOnlyBetweenEntries(s: Sizer)
    requires |s.entries| >= 1
    requires forall i :: 0 <= i < |s.entries| ==>
               !IsProportional(s.entries[i].proportion) && s.entries[i].border == NoBorder
    ensures Get(MinimumSize(s), MainAxis(s.kind))
            == MainSum(MainAxis(s.kind), EntrySizes(s)) + (|s.entries| - 1) as real * s.gap
  {
    var st := MinimumState(s);
    LoopAllFixed(MainAxis(s.kind), s.gap, s.entries, EntrySizes(s));
    CorrectedWithoutProportional(s.kind, st, TotalProportion(s.entries));
    assert MinimumSize(s) == Corrected(s.kind, st, TotalProportion(s.entries), true);
    GapTotalFirst(|s.entries|, s.gap);
  }

  /** The loop over fixed, borderless entries sums their main sizes and the gaps and
      never sets a per-unit minimum. */
  lemma LoopAllFixed(axis: Axis, gap: real, es: seq<Entry>, sizes: seq<Vec2>)
    requires |sizes| == |es|
    requires forall i :: 0 <= i < |es| ==> !IsProportional(es[i].proportion) && es[i].border == NoBorder
    ensures MinLoop(axis, gap, es, sizes, true, StartState).main == MainSum(axis, sizes) + GapTotal(true, |es|, gap)
    ensures MinLoop(axis, gap, es, sizes, true, StartState).biggestProportional == 0.0
  {
    MinLoopMain(axis, gap, es, sizes, true, StartState);
    FixedMainWhenAllFixed(axis, es, sizes);
    NoBordersSumToZero(axis, es);
    MinLoopBiggest(axis, gap, es, sizes, true, StartState);
  }

  /** With no proportional entry the correction adds nothing. */
  lemma CorrectedWithoutProportional(kind: SizerType, st: MinState, total: real)
    requires st.biggestProportional == 0.0
    ensures Get(Corrected(kind, st, total, true), MainAxis(kind)) == st.main
  {
    ZeroTimes(st.biggestProportional, total);
  }

  /** A run that starts the sizer has one gap fewer than entries. */
  lemma GapTotalFirst(n: nat, gap: real)
    requires n >= 1
    ensures GapTotal(true, n, gap) == (n - 1) as real * gap
  {
    GapTotalIsCount(true, n, gap);
  }

  /** The two components of `computeMinimumSize` in terms of the loop totals. */
  lemma MinimumSizeParts(s: Sizer, includeProportional: bool)
    ensures Get(ComputeMinimumSize(s, includeProportional), MainAxis(s.kind))
            == MinimumState(s).main
               + (if includeProportional then MinimumState(s).biggestProportional * TotalProportion(s.entries) else 0.0)
    ensures Get(ComputeMinimumSize(s, includeProportional), CrossAxis(MainAxis(s.kind))) == MinimumState(s).other
  {
  }

  /** The public overload includes proportional entries: its main extent is the fixed-only
      extent plus the biggest per-unit minimum times the total proportion, its cross
      extent is unchanged, and with non-negative proportions it is never smaller. */
  lemma ProportionalCorrection(s: Sizer)
    ensures Get(MinimumSize(s), MainAxis(s.kind))
            == Get(ComputeMinimumSize(s, false), MainAxis(s.kind))
               + MinimumState(s).biggestProportional * TotalProportion(s.entries)
    ensures Get(MinimumSize(s), CrossAxis(MainAxis(s.kind)))
            == Get(ComputeMinimumSize(s, false), CrossAxis(MainAxis(s.kind)))
    ensures MinimumState(s).biggestProportional >= 0.0
    ensures NonNegativeWeights(s.entries) ==>
              Get(MinimumSize(s), MainAxis(s.kind)) >= Get(ComputeMinimumSize(s, false), MainAxis(s.kind))
  {
    var b := MinimumState(s).biggestProportional;
    LoopBiggestNonNegative(MainAxis(s.kind), s.gap, s.entries, EntrySizes(s));
    MinimumSizeParts(s, true);
    MinimumSizeParts(s, false);
    if NonNegativeWeights(s.entries) {
      ScaleMonotone(b, 0.0, TotalProportion(s.entries));
    }
  }

  lemma LoopBiggestNonNegative(axis: Axis, gap: real, es: seq<Entry>, sizes: seq<Vec2>)
    requires |sizes| == |es|
    ensures MinLoop(axis, gap, es, sizes, true, StartState).biggestProportional >= 0.0
  {
    MinLoopBiggest(axis, gap, es, sizes, true, StartState);
  }

  /** A proportional entry only raises the biggest per-unit minimum, so its implied share
      (that value times its proportion) is at least its own main-axis minimum. */
  lemma ProportionalShareCoversMinimum(s: Sizer, i: nat)
    requires i < |s.entries| && IsProportional(s.entries[i].proportion)
    ensures MinimumState(s).biggestProportional >= PerUnit(MainAxis(s.kind), s.entries[i], EntrySizes(s)[i])
    ensures MinimumState(s).biggestProportional * s.entries[i].proportion
            >= Get(EntryMinimumSize(s.entries[i]), MainAxis(s.kind))
  {
    var axis := MainAxis(s.kind);
    MinLoopBiggest(axis, s.gap, s.entries, EntrySizes(s), true, StartState);
    ShareCovers(MinimumState(s).biggestProportional, Get(EntryMinimumSize(s.entries[i]), axis), s.entries[i].proportion);
  }

  lemma {:induction false} MainSumSplits(axis: Axis, es: seq<Entry>, sizes: seq<Vec2>)
    requires |sizes| == |es|
    ensures MainSum(axis, sizes) == FixedMain(axis, es, sizes) + ProportionalMain(axis, es, sizes)
    decreases |es|
  {
    if es != [] {
      MainSumSplits(axis, es[1..], sizes[1..]);
    }
  }

  lemma {:induction false} WeightBoundsProportionalMain(axis: Axis, es: seq<Entry>, sizes: seq<Vec2>, b: real)
    requires |sizes| == |es|
    requires forall i :: 0 <= i < |es| && IsProportional(es[i].proportion) ==> b >= PerUnit(axis, es[i], sizes[i])
    ensures b * ProportionalWeight(es) >= ProportionalMain(axis, es, sizes)
  {
    ScaledCoversMain(axis, es, sizes, b);
    ScaledIsProduct(es, b);
  }

  /** The proportions of `es`, each multiplied by `b`, summed one by one. */
  function ScaledWeight(es: seq<Entry>, b: real): real
  {
    if es == [] then 0.0
    else (if IsProportional(es[0].proportion) then b * es[0].proportion else 0.0) + ScaledWeight(es[1..], b)
  }

  lemma {:induction false} ScaledCoversMain(axis: Axis, es: seq<Entry>, sizes: seq<Vec2>, b: real)
    requires |sizes| == |es|
    requires forall i :: 0 <= i < |es| && IsProportional(es[i].proportion) ==> b >= PerUnit(axis, es[i], sizes[i])
    ensures ScaledWeight(es, b) >= ProportionalMain(axis, es, sizes)
    decreases |es|
  {
    if es != [] {
      forall i | 0 <= i < |es[1..]| && IsProportional(es[1..][i].proportion)
        ensures b >= PerUnit(axis, es[1..][i], sizes[1..][i])
      {
        assert es[1..][i] == es[i + 1] && sizes[1..][i] == sizes[i + 1];
      }
      ScaledCoversMain(axis, es[1..], sizes[1..], b);
      if IsProportional(es[0].proportion) {
        assert b >= PerUnit(axis, es[0], sizes[0]);
        ShareCovers(b, Get(sizes[0], axis), es[0].proportion);
      }
    }
  }

  lemma {:induction false} ScaledIsProduct(es: seq<Entry>, b: real)
    ensures ScaledWeight(es, b) == b * ProportionalWeight(es)
  {
    if es != [] {
      ScaledIsProduct(es[1..], b);
      var p := if IsProportional(es[0].proportion) then es[0].proportion else 0.0;
      Distribute(b, p, ProportionalWeight(es[1..]));
      if !IsProportional(es[0].proportion) {
        assert b * p == 0.0;
      }
    }
  }

  lemma {:induction false} ProportionalWeightBelowTotal(es: seq<Entry>)
    requires NonNegativeWeights(es)
    ensures 0.0 <= ProportionalWeight(es) <= TotalProportion(es)
  {
    if es != [] {
      assert forall i :: 0 <= i < |es[1..]| ==> es[1..][i] == es[i + 1];
      ProportionalWeightBelowTotal(es[1..]);
    }
  }

  /** Summed over all proportional entries, the proportional correction covers their
      main-axis minimum sizes. */
  lemma ProportionalShareCoversAll(s: Sizer)
    requires NonNegativeWeights(s.entries)
    ensures MinimumState(s).biggestProportional * TotalProportion(s.entries)
            >= ProportionalMain(MainAxis(s.kind), s.entries, EntrySizes(s))
  {
    var axis := MainAxis(s.kind);
    var sizes := EntrySizes(s);
    var b := MinimumState(s).biggestProportional;
    LoopShareCovers(axis, s.gap, s.entries, sizes);
    ProportionalWeightBelowTotal(s.entries);
    ScaleMonotone(b, ProportionalWeight(s.entries), TotalProportion(s.entries));
  }

  lemma LoopShareCovers(axis: Axis, gap: real, es: seq<Entry>, sizes: seq<Vec2>)
    requires |sizes| == |es|
    ensures MinLoop(axis, gap, es, sizes, true, StartState).biggestProportional >= 0.0
    ensures MinLoop(axis, gap, es, sizes, true, StartState).biggestProportional * ProportionalWeight(es)
            >= ProportionalMain(axis, es, sizes)
  {
    MinLoopBiggest(axis, gap, es, sizes, true, StartState);
    WeightBoundsProportionalMain(axis, es, sizes, MinLoop(axis, gap, es, sizes, true, StartState).biggestProportional);
  }

  /** With non-negative proportions the minimum main extent leaves room for every entry's
      own minimum, proportional or fixed, plus all borders and gaps. */
  lemma MinimumCoversEveryEntry(s: Sizer)
    requires NonNegativeWeights(s.entries)
    ensures Get(MinimumSize(s), MainAxis(s.kind))
            >= MainSum(MainAxis(s.kind), EntrySizes(s)) + MainBorders(MainAxis(s.kind), s.entries)
               + GapTotal(true, |s.entries|, s.gap)
  {
    var axis := MainAxis(s.kind);
    var sizes := EntrySizes(s);
    var b := MinimumState(s).biggestProportional;
    var total := TotalProportion(s.entries);
    var share := b * total;
    ProportionalShareCoversAll(s);
    assert Get(MinimumSize(s), axis) == Get(ComputeMinimumSize(s, false), axis) + share by {
      ProportionalCorrection(s);
    }
    FixedMainMinimum(s);
    MainSumSplits(axis, s.entries, sizes);
    SumBelow(Get(MinimumSize(s), axis), Get(ComputeMinimumSize(s, false), axis), share,
             FixedMain(axis, s.entries, sizes), ProportionalMain(axis, s.entries, sizes),
             MainBorders(axis, s.entries) + GapTotal(true, |s.entries|, s.gap));
  }

  // ---------------------------------------------------------------------------
  // Arithmetic steps kept out of the larger proofs
  // ---------------------------------------------------------------------------

  lemma SumBelow(total: real, fixedOnly: real, share: real, fixed: real, proportional: real, rest: real)
    requires total == fixedOnly + share && fixedOnly == fixed + rest && share >= proportional
    ensures total >= (fixed + proportional) + rest
  {
  }

  lemma TimesSuccessor(n: real, m: real, g: real)
    requires m == n + 1.0
    ensures m * g == n * g + g
  {
  }

  lemma ZeroTimes(b: real, x: real)
    requires b == 0.0
    ensures b * x == 0.0
  {
  }

  lemma Distribute(b: real, x: real, y: real)
    ensures b * (x + y) == b * x + b * y
  {
  }

  lemma ShareCovers(b: real, m: real, p: real)
    requires p > 0.0 && b >= m / p
    ensures b * p >= m
  {
    assert b * p >= (m / p) * p;
  }

  lemma ScaleMonotone(b: real, x: real, y: real)
    requires b >= 0.0 && x <= y
    ensures b * x <= b * y
  {
    assert b * (y - x) >= 0.0;
  }
}

=== FILE: placement.dfy ===
/** Properties of the cells `setRect` lays out: their cross size, their start and the
    main-axis advance between them, and exact filling of the rectangle. */
module PlacementFacts {
  import opened Geometry
  import opened Sizer
  import opened MinimumSizeFacts
  import opened SplitFacts

  function RealSum(xs: seq<real>): real
  {
    if xs == [] then 0.0 else xs[0] + RealSum(xs[1..])
  }

  /** Past the first cell, the cells are those of the remaining entries, walked from
      the position after the first one. */
  lemma CellsTail(axis: Axis, gap: real, rect: Rect, es: seq<Entry>, mains: seq<real>, first: bool, pos: Vec2, i: nat)
    requires |mains| == |es| && 1 <= i < |es|
    ensures Cells(axis, gap, rect, es, mains, first, pos)[i]
            == Cells(axis, gap, rect, es[1..], mains[1..], false, NextPos(axis, gap, es, mains, first, pos))[i - 1]
  {
  }

  /** The first cell: its cross size is the rectangle's less its own cross borders, its
      main size is `mains[0]`, and it starts at the walk position plus its leading
      borders (plus a gap on the main axis unless it starts the sizer). */
  lemma FirstCell(axis: Axis, gap: real, rect: Rect, es: seq<Entry>, mains: seq<real>, first: bool, pos: Vec2)
    requires |mains| == |es| && |es| > 0
    ensures Get(Cells(axis, gap, rect, es, mains, first, pos)[0].Size(), CrossAxis(axis))
            == Get(rect.Size(), CrossAxis(axis)) - Leading(es[0].border, CrossAxis(axis)) - Trailing(es[0].border, CrossAxis(axis))
    ensures Get(Cells(axis, gap, rect, es, mains, first, pos)[0].Size(), axis) == mains[0]
    ensures Get(Cells(axis, gap, rect, es, mains, first, pos)[0].topLeft, CrossAxis(axis))
            == Get(pos, CrossAxis(axis)) + Leading(es[0].border, CrossAxis(axis))
    ensures Get(Cells(axis, gap, rect, es, mains, first, pos)[0].topLeft, axis)
            == Get(pos, axis) + Leading(es[0].border, axis) + (if first then 0.0 else gap)
    ensures Get(Cells(axis, gap, rect, es, mains, first, pos)[0].bottomRight, axis)
            == Get(pos, axis) + Leading(es[0].border, axis) + (if first then 0.0 else gap) + mains[0]
  {
    var border := GapBorder(es[0].border, axis, gap, first);
    var cross := CrossAxis(axis);
    var cellSize := Compose(axis, mains[0], Get(rect.Size(), cross) - Leading(border, cross) - Trailing(border, cross));
    var curPos := pos.Add(Vec2(border.left, border.top));
    assert Get(curPos, axis) == Get(pos, axis) + Leading(border, axis);
    assert Get(curPos, cross) == Get(pos, cross) + Leading(border, cross);
    assert Cells(axis, gap, rect, es, mains, first, pos)[0] == MakeRect(curPos, cellSize);
  }

  /** Cell `i` spans the rectangle's cross size minus its own cross borders, takes its
      main size from `mains`, and starts across the main axis at the walk position plus
      its own leading cross border. */
  lemma {:induction false} CellShape(axis: Axis, gap: real, rect: Rect, es: seq<Entry>, mains: seq<real>, first: bool, pos: Vec2, i: nat)
    requires |mains| == |es| && i < |es|
    ensures Get(Cells(axis, gap, rect, es, mains, first, pos)[i].Size(), CrossAxis(axis))
            == Get(rect.Size(), CrossAxis(axis)) - Leading(es[i].border, CrossAxis(axis)) - Trailing(es[i].border, CrossAxis(axis))
    ensures Get(Cells(axis, gap, rect, es, mains, first, pos)[i].Size(), axis) == mains[i]
    ensures Get(Cells(axis, gap, rect, es, mains, first, pos)[i].topLeft, CrossAxis(axis))
            == Get(pos, CrossAxis(axis)) + Leading(es[i].border, CrossAxis(axis))
    decreases i
  {
    if i == 0 {
      FirstCell(axis, gap, rect, es, mains, first, pos);
    } else {
      var next := NextPos(axis, gap, es, mains, first, pos);
      CellsTail(axis, gap, rect, es, mains, first, pos, i);
      CellShape(axis, gap, rect, es[1..], mains[1..], false, next, i - 1);
      assert es[1..][i - 1] == es[i] && mains[1..][i - 1] == mains[i];
    }
  }

  /** Cells follow each other in list order along the main axis: cell `i + 1` starts
      after cell `i`'s trailing border, one gap and its own leading border. */
  lemma {:induction false} CellAdvance(axis: Axis, gap: real, rect: Rect, es: seq<Entry>, mains: seq<real>, first: bool, pos: Vec2, i: nat)
    requires |mains| == |es| && i + 1 < |es|
    ensures Get(Cells(axis, gap, rect, es, mains, first, pos)[i + 1].topLeft, axis)
            == Get(Cells(axis, gap, rect, es, mains, first, pos)[i].bottomRight, axis)
               + Trailing(es[i].border, axis) + gap + Leading(es[i + 1].border, axis)
    decreases i
  {
    var next := NextPos(axis, gap, es, mains, first, pos);
    CellsTail(axis, gap, rect, es, mains, first, pos, i + 1);
    if i == 0 {
      FirstCell(axis, gap, rect, es, mains, first, pos);
      FirstCell(axis, gap, rect, es[1..], mains[1..], false, next);
      assert es[1..][0] == es[1];
    } else {
      CellsTail(axis, gap, rect, es, mains, first, pos, i);
      CellAdvance(axis, gap, rect, es[1..], mains[1..], false, next, i - 1);
      assert es[1..][i - 1] == es[i] && es[1..][i] == es[i + 1];
    }
  }

  /** The walk position `pos` takes next, after the first cell of `es`. */
  function NextPos(axis: Axis, gap: real, es: seq<Entry>, mains: seq<real>, first: bool, pos: Vec2): (r: Vec2)
    requires |mains| == |es| && |es| > 0
    ensures Get(r, axis) == Get(pos, axis) + mains[0] + Leading(es[0].border, axis)
                            + Trailing(es[0].border, axis) + (if first then 0.0 else gap)
  {
    var border := GapBorder(es[0].border, axis, gap, first);
    With(pos, axis, Get(pos, axis) + mains[0] + Leading(border, axis) + Trailing(border, axis))
  }

  /** Where the last cell and its trailing border end along the main axis. */
  function WalkEnd(axis: Axis, gap: real, rect: Rect, es: seq<Entry>, mains: seq<real>, first: bool, pos: Vec2): real
    requires |mains| == |es| && |es| > 0
  {
    Get(Cells(axis, gap, rect, es, mains, first, pos)[|es| - 1].bottomRight, axis) + Trailing(es[|es| - 1].border, axis)
  }

  lemma WalkEndStep(axis: Axis, gap: real, rect: Rect, es: seq<Entry>, mains: seq<real>, first: bool, pos: Vec2)
    requires |mains| == |es| && |es| > 1
    ensures WalkEnd(axis, gap, rect, es, mains, first, pos)
            == WalkEnd(axis, gap, rect, es[1..], mains[1..], false, NextPos(axis, gap, es, mains, first, pos))
  {
    CellsTail(axis, gap, rect, es, mains, first, pos, |es| - 1);
    assert es[|es| - 1] == es[1..][|es| - 2];
  }

  /** Where the walk ends: after the last cell and its trailing border, `pos` has moved by
      every cell's main size, every main border and the gaps. */
  lemma {:induction false} CellsEnd(axis: Axis, gap: real, rect: Rect, es: seq<Entry>, mains: seq<real>, first: bool, pos: Vec2)
    requires |mains| == |es| && |es| > 0
    ensures WalkEnd(axis, gap, rect, es, mains, first, pos)
            == Get(pos, axis) + RealSum(mains) + MainBorders(axis, es) + GapTotal(first, |es|, gap)
    decreases |es|
  {
    if |es| == 1 {
      SingleCellEnd(axis, gap, rect, es, mains, first, pos);
    } else {
      var next := NextPos(axis, gap, es, mains, first, pos);
      WalkEndStep(axis, gap, rect, es, mains, first, pos);
      CellsEnd(axis, gap, rect, es[1..], mains[1..], false, next);
      assert GapTotal(first, |es|, gap) == (if first then 0.0 else gap) + GapTotal(false, |es[1..]|, gap);
      assert RealSum(mains) == mains[0] + RealSum(mains[1..]);
      assert MainBorders(axis, es) == Leading(es[0].border, axis) + Trailing(es[0].border, axis) + MainBorders(axis, es[1..]);
    }
  }

  lemma SingleCellEnd(axis: Axis, gap: real, rect: Rect, es: seq<Entry>, mains: seq<real>, first: bool, pos: Vec2)
    requires |mains| == |es| == 1
    ensures WalkEnd(axis, gap, rect, es, mains, first, pos)
            == Get(pos, axis) + RealSum(mains) + MainBorders(axis, es) + GapTotal(first, |es|, gap)
  {
    FirstCell(axis, gap, rect, es, mains, first, pos);
    assert GapTotal(first, 1, gap) == if first then 0.0 else gap;
    assert es[1..] == [] && mains[1..] == [];
    assert MainBorders(axis, es[1..]) == 0.0 && RealSum(mains[1..]) == 0.0;
    assert RealSum(mains) == mains[0] && MainBorders(axis, es) == Leading(es[0].border, axis) + Trailing(es[0].border, axis);
  }

  lemma {:induction false} MainsSplit(axis: Axis, es: seq<Entry>, sizes: seq<Vec2>, mains: seq<real>)
    requires |sizes| == |es| && |mains| == |es|
    requires forall i :: 0 <= i < |es| && !IsProportional(es[i].proportion) ==> mains[i] == Get(sizes[i], axis)
    ensures RealSum(mains) == FixedMain(axis, es, sizes) + ProportionalShares(es, mains)
    decreases |es|
  {
    if es != [] {
      assert forall i :: 0 <= i < |es| - 1 ==> es[1..][i] == es[i + 1] && sizes[1..][i] == sizes[i + 1] && mains[1..][i] == mains[i + 1];
      MainsSplit(axis, es[1..], sizes[1..], mains[1..]);
    }
  }

  /** Under the exactness conditions the cells' main sizes add up to the rectangle's main
      size less every main border and gap. */
  lemma CellSizesAccount(s: Sizer, rect: Rect)
    requires ZeroOrProportional(s.entries) && HasProportional(s.entries)
    requires IsIntegral(Spare(s, rect))
    ensures NonNegativeWeights(s.entries)
    ensures RealSum(CellMainSizes(s, rect))
            == Get(rect.Size(), MainAxis(s.kind)) - MainBorders(MainAxis(s.kind), s.entries)
               - GapTotal(true, |s.entries|, s.gap)
  {
    var axis := MainAxis(s.kind);
    var es := s.entries;
    var sizes := EntrySizes(s);
    var spare := Spare(s, rect);
    var total := TotalProportion(es);
    SplitConsumesSpare(axis, es, sizes, spare, total);
    var mains := CellMainSizes(s, rect);
    assert RealSum(mains) == FixedMain(axis, es, sizes) + spare by {
      FixedCellsKeepMinimum(axis, es, sizes, spare, total);
      MainsSplit(axis, es, sizes, mains);
    }
    FixedMainMinimum(s);
  }

  /** `setRect` fills its rectangle exactly along the main axis: when every weight is zero
      or proportional, some entry is proportional and the spare space is a whole number,
      the last cell plus its trailing border ends exactly at the rectangle's far edge. */
  lemma SetRectFillsMainAxis(s: Sizer, rect: Rect)
    requires ZeroOrProportional(s.entries) && HasProportional(s.entries)
    requires IsIntegral(Spare(s, rect))
    ensures NonNegativeWeights(s.entries)
    ensures Get(CellsOf(s, rect)[|s.entries| - 1].bottomRight, MainAxis(s.kind))
            + Trailing(s.entries[|s.entries| - 1].border, MainAxis(s.kind))
            == Get(rect.bottomRight, MainAxis(s.kind))
  {
    var axis := MainAxis(s.kind);
    CellSizesAccount(s, rect);
    CellsEnd(axis, s.gap, rect, s.entries, CellMainSizes(s, rect), true, rect.topLeft);
  }
}

=== FILE: sizer.dfy ===
/** The one-axis box sizer (UISizer / UISizerEntry): a recursive tree whose slots
    hold a leaf widget, a nested sizer or nothing (a spacer). */
module Sizer {
  import opened Geometry

  /** An entry whose proportion does not exceed this is a fixed entry. */
  const ProportionEpsilon: real := 0.0001

  predicate IsProportional(p: real)
  {
    p > ProportionEpsilon
  }

  datatype SizerType = Horizontal | Vertical

  function MainAxis(t: SizerType): Axis
  {
    if t == Horizontal then X else Y
  }

  /** The alignment and fill bits of an entry (UISizerAlignFlags / UISizerFillFlags). */
  datatype Flags = Flags(top: bool, centreVertical: bool, bottom: bool,
                         left: bool, centreHorizontal: bool, right: bool,
                         fillHorizontal: bool, fillVertical: bool)

  const NoFlags := Flags(false, false, false, false, false, false, false, false)

  /** What a slot wraps. A leaf widget's minimum size is an input of the model. */
  datatype Element = Widget(id: nat, minSize: Vec2) | Nested(sizer: Sizer) | Empty

  datatype Entry = Entry(element: Element, proportion: real, border: Border, flags: Flags)

  datatype Sizer = Sizer(kind: SizerType, gap: real, entries: seq<Entry>)

  /** One call of a leaf widget's `setRect`. */
  datatype Placement = Placement(widget: nat, rect: Rect)

  function Size(s: Sizer): nat
  {
    |s.entries|
  }

  // ---------------------------------------------------------------------------
  // Minimum size (bottom-up)
  // ---------------------------------------------------------------------------

  /** `UISizerEntry::getMinimumSize`: zero for a spacer, else the element's own minimum. */
  function EntryMinimumSize(e: Entry): Vec2
    decreases e
  {
    match e.element
    case Empty => Zero
    case Widget(_, m) => m
    case Nested(child) => MinimumSize(child)
  }

  /** The public `computeMinimumSize()`, which always includes proportional entries. */
  function MinimumSize(s: Sizer): (r: Vec2)
    ensures Get(r, CrossAxis(MainAxis(s.kind))) >= 0.0
    decreases s, 3
  {
    ComputeMinimumSize(s, true)
  }

  /** The minimum size of every entry, in order. */
  function EntrySizes(s: Sizer): (r: seq<Vec2>)
    ensures |r| == |s.entries|
    ensures forall i :: 0 <= i < |s.entries| ==> r[i] == EntryMinimumSize(s.entries[i])
    decreases s, 0
  {
    seq(|s.entries|, i requires 0 <= i < |s.entries| => EntryMinimumSize(s.entries[i]))
  }

  function TotalProportion(es: seq<Entry>): (r: real)
    ensures (forall i :: 0 <= i < |es| ==> es[i].proportion >= 0.0) ==> r >= 0.0
  {
    if es == [] then 0.0 else es[0].proportion + TotalProportion(es[1..])
  }

  /** The running totals of the minimum-size loop. */
  datatype MinState = MinState(main: real, biggestProportional: real, other: real)

  const StartState := MinState(0.0, 0.0, 0.0)

  /** The border an entry uses in both loops: every entry but the first gets `gap`
      added to its leading inset on the main axis. */
  function GapBorder(b: Border, axis: Axis, gap: real, first: bool): Border
  {
    if first then b else AddLeading(b, axis, gap)
  }

  /** One iteration of the loop of `computeMinimumSize(bool)` for entry `e` of minimum size `sz`. */
  function MinStep(axis: Axis, gap: real, e: Entry, sz: Vec2, first: bool, st: MinState): MinState
  {
    var border := GapBorder(e.border, axis, gap, first);
    var cross := CrossAxis(axis);
    var other := Max(st.other, Get(sz, cross) + Leading(border, cross) + Trailing(border, cross));
    var p := e.proportion;
    var main := if IsProportional(p) then st.main else st.main + Get(sz, axis);
    var biggest := if IsProportional(p) then Max(st.biggestProportional, Get(sz, axis) / p)
                   else st.biggestProportional;
    MinState(main + Leading(border, axis) + Trailing(border, axis), biggest, other)
  }

  /** The loop of `computeMinimumSize(bool)` over `es`, whose minimum sizes are `sizes`. */
  function MinLoop(axis: Axis, gap: real, es: seq<Entry>, sizes: seq<Vec2>, first: bool, st: MinState): (r: MinState)
    requires |sizes| == |es|
    ensures r.other >= st.other
    decreases |es|
  {
    if es == [] then st
    else MinLoop(axis, gap, es[1..], sizes[1..], false, MinStep(axis, gap, es[0], sizes[0], first, st))
  }

  /** The loop totals of sizer `s`, before the proportional correction. */
  function MinimumState(s: Sizer): (r: MinState)
    ensures r.other >= 0.0
    decreases s, 1
  {
    MinLoop(MainAxis(s.kind), s.gap, s.entries, EntrySizes(s), true, StartState)
  }

  /** `computeMinimumSize(includeProportional)`. */
  function ComputeMinimumSize(s: Sizer, includeProportional: bool): (r: Vec2)
    ensures Get(r, CrossAxis(MainAxis(s.kind))) >= 0.0
    decreases s, 2
  {
    Corrected(s.kind, MinimumState(s), TotalProportion(s.entries), includeProportional)
  }

  /** The size `computeMinimumSize` returns from the loop totals `st` and the total
      proportion: with `includeProportional`, the main extent also gets the biggest
      per-unit minimum times the total proportion. */
  function Corrected(kind: SizerType, st: MinState, total: real, includeProportional: bool): Vec2
  {
    var main := if includeProportional then st.main + st.biggestProportional * total else st.main;
    Compose(MainAxis(kind), main, st.other)
  }

  // ---------------------------------------------------------------------------
  // Placement (top-down)
  // ---------------------------------------------------------------------------

  /** The caller contract of `setRect`: no proportion anywhere in the tree is negative. */
  predicate ProportionsNonNegative(s: Sizer)
    decreases s
  {
    forall i :: 0 <= i < |s.entries| ==>
      && s.entries[i].proportion >= 0.0
      && (s.entries[i].element.Nested? ==> ProportionsNonNegative(s.entries[i].element.sizer))
  }

  predicate NonNegativeWeights(es: seq<Entry>)
  {
    forall i :: 0 <= i < |es| ==> es[i].proportion >= 0.0
  }

  /** `std::floor(spare * p / total)`: a proportional entry's whole-pixel share. */
  function FloorShare(spare: real, p: real, total: real): real
    requires total != 0.0
  {
    (spare * p / total).Floor as real
  }

  /** The main-axis size of every cell in `setRect`: a fixed entry keeps its minimum
      size; a proportional entry takes `floor(spare * p / total)` of the running
      `spare`, and both `spare` and `total` are then reduced. */
  function MainSizes(axis: Axis, es: seq<Entry>, sizes: seq<Vec2>, spare: real, total: real): (r: seq<real>)
    requires |sizes| == |es|
    requires NonNegativeWeights(es)
    requires total >= TotalProportion(es)
    ensures |r| == |es|
    decreases |es|
  {
    if es == [] then []
    else
      var p := es[0].proportion;
      assert TotalProportion(es[1..]) >= 0.0 by {
        assert forall i :: 0 <= i < |es[1..]| ==> es[1..][i] == es[i + 1];
      }
      if IsProportional(p) then
        var propSize := FloorShare(spare, p, total);
        [propSize] + MainSizes(axis, es[1..], sizes[1..], spare - propSize, total - p)
      else
        [Get(sizes[0], axis)] + MainSizes(axis, es[1..], sizes[1..], spare, total)
  }

  /** The cell of every entry in `setRect`, walking `pos` along the main axis. */
  function Cells(axis: Axis, gap: real, rect: Rect, es: seq<Entry>, mains: seq<real>, first: bool, pos: Vec2): (r: seq<Rect>)
    requires |mains| == |es|
    ensures |r| == |es|
    decreases |es|
  {
    if es == [] then []
    else
      var border := GapBorder(es[0].border, axis, gap, first);
      var cross := CrossAxis(axis);
      var cellSize := Compose(axis, mains[0], Get(rect.Size(), cross) - Leading(border, cross) - Trailing(border, cross));
      var curPos := pos.Add(Vec2(border.left, border.top));
      var next := With(pos, axis, Get(pos, axis) + mains[0] + Leading(border, axis) + Trailing(border, axis));
      [MakeRect(curPos, cellSize)] + Cells(axis, gap, rect, es[1..], mains[1..], false, next)
  }

  /** The spare main-axis space `setRect` hands to proportional entries. */
  function Spare(s: Sizer, rect: Rect): real
  {
    Get(rect.Size(), MainAxis(s.kind)) - Get(ComputeMinimumSize(s, false), MainAxis(s.kind))
  }

  /** The main-axis size of every cell of `s` placed in `rect`. */
  function CellMainSizes(s: Sizer, rect: Rect): (r: seq<real>)
    requires NonNegativeWeights(s.entries)
    ensures |r| == |s.entries|
  {
    MainSizes(MainAxis(s.kind), s.entries, EntrySizes(s), Spare(s, rect), TotalProportion(s.entries))
  }

  /** The cells of `s` placed in `rect`. */
  function CellsOf(s: Sizer, rect: Rect): (r: seq<Rect>)
    requires NonNegativeWeights(s.entries)
    ensures |r| == |s.entries|
  {
    Cells(MainAxis(s.kind), s.gap, rect, s.entries, CellMainSizes(s, rect), true, rect.topLeft)
  }

  /** The anchor fractions of an entry; the flags are checked in a fixed order and a
      later flag on the same axis overwrites an earlier one. */
  function Anchoring(f: Flags): (r: Vec2)
    ensures r.y == if f.bottom then 1.0 else if f.centreVertical then 0.5 else 0.0
    ensures r.x == if f.right then 1.0 else if f.centreHorizontal then 0.5 else 0.0
  {
    var y0 := 0.0;
    var y1 := if f.top then 0.0 else y0;
    var y2 := if f.centreVertical then 0.5 else y1;
    var y3 := if f.bottom then 1.0 else y2;
    var x0 := 0.0;
    var x1 := if f.left then 0.0 else x0;
    var x2 := if f.centreHorizontal then 0.5 else x1;
    var x3 := if f.right then 1.0 else x2;
    Vec2(x3, y3)
  }

  /** The rectangle `placeInside` gives the element of an entry with flags `f` in `cell`. */
  function PlacedRect(f: Flags, cell: Rect, minSize: Vec2): (r: Rect)
    ensures IsIntegral(r.topLeft.x) && IsIntegral(r.topLeft.y)
    ensures r.Size().x == if f.fillHorizontal then cell.Size().x else minSize.x
    ensures r.Size().y == if f.fillVertical then cell.Size().y else minSize.y
    ensures !f.right && !f.centreHorizontal ==> Near(r.topLeft.x, cell.topLeft.x)
    ensures f.right ==> Near(r.bottomRight.x, cell.bottomRight.x)
    ensures !f.right && f.centreHorizontal ==>
              Near(r.topLeft.x + r.Size().x / 2.0, cell.topLeft.x + cell.Size().x / 2.0)
    ensures !f.bottom && !f.centreVertical ==> Near(r.topLeft.y, cell.topLeft.y)
    ensures f.bottom ==> Near(r.bottomRight.y, cell.bottomRight.y)
    ensures !f.bottom && f.centreVertical ==>
              Near(r.topLeft.y + r.Size().y / 2.0, cell.topLeft.y + cell.Size().y / 2.0)
    ensures f.fillHorizontal ==> Near(r.topLeft.x, cell.topLeft.x)
    ensures f.fillVertical ==> Near(r.topLeft.y, cell.topLeft.y)
  {
    var cellSize := cell.Size();
    var anchoring := Anchoring(f);
    var size := Vec2(if f.fillHorizontal then cellSize.x else minSize.x,
                     if f.fillVertical then cellSize.y else minSize.y);
    var spareSize := cellSize.Sub(size);
    var pos := Vec2(Round(cell.topLeft.x + spareSize.x * anchoring.x),
                    Round(cell.topLeft.y + spareSize.y * anchoring.y));
    MakeRect(pos, size)
  }

  /** `UISizerEntry::placeInside`: the widget calls `setRect` makes, in order. */
  function PlaceInside(e: Entry, cell: Rect, minSize: Vec2): (r: seq<Placement>)
    requires e.element.Nested? ==> ProportionsNonNegative(e.element.sizer)
    ensures |r| == |EntryLeaves(e)|
    decreases e
  {
    match e.element
    case Empty => []
    case Widget(id, _) => [Placement(id, PlacedRect(e.flags, cell, minSize))]
    case Nested(child) => SetRect(child, PlacedRect(e.flags, cell, minSize))
  }

  /** `UISizer::setRect`: the widget `setRect` calls of the whole subtree, in order. */
  function SetRect(s: Sizer, rect: Rect): (r: seq<Placement>)
    requires ProportionsNonNegative(s)
    ensures |r| == |Leaves(s)|
    decreases s, 1
  {
    PlaceFrom(s, CellsOf(s, rect), EntrySizes(s), 0)
  }

  function PlaceFrom(s: Sizer, cells: seq<Rect>, sizes: seq<Vec2>, i: nat): (r: seq<Placement>)
    requires ProportionsNonNegative(s)
    requires |cells| == |s.entries| && |sizes| == |s.entries| && i <= |s.entries|
    ensures |r| == |LeavesFrom(s, i)|
    decreases s, 0, |s.entries| - i
  {
    if i == |s.entries| then []
    else PlaceInside(s.entries[i], cells[i], sizes[i]) + PlaceFrom(s, cells, sizes, i + 1)
  }

  // ---------------------------------------------------------------------------
  // Tree operations
  // ---------------------------------------------------------------------------

  /** `addElement` (and both `add` overloads): appends one entry. */
  function AddElement(s: Sizer, element: Element, proportion: real, border: Border, flags: Flags): (r: Sizer)
    ensures r.kind == s.kind && r.gap == s.gap
    ensures Size(r) == Size(s) + 1
    ensures r.entries[..Size(s)] == s.entries
    ensures r.entries[Size(s)] == Entry(element, proportion, border, flags)
  {
    s.(entries := s.entries + [Entry(element, proportion, border, flags)])
  }

  /** `addSpacer`: a fixed gap of `size` along the main axis. */
  function AddSpacer(s: Sizer, size: real): (r: Sizer)
    ensures r.kind == s.kind && r.gap == s.gap
    ensures Size(r) == Size(s) + 1 && r.entries[..Size(s)] == s.entries
    ensures r.entries[Size(s)].element == Empty && r.entries[Size(s)].proportion == 0.0
    ensures Leading(r.entries[Size(s)].border, MainAxis(s.kind)) == size
    ensures Trailing(r.entries[Size(s)].border, MainAxis(s.kind)) == 0.0
    ensures Leading(r.entries[Size(s)].border, CrossAxis(MainAxis(s.kind))) == 0.0
    ensures Trailing(r.entries[Size(s)].border, CrossAxis(MainAxis(s.kind))) == 0.0
  {
    var border := Border(if s.kind == Horizontal then size else 0.0,
                         if s.kind == Vertical then size else 0.0, 0.0, 0.0);
    AddElement(s, Empty, 0.0, border, NoFlags)
  }

  /** `addStretchSpacer`: an empty entry that takes a share `proportion` of the spare space. */
  function AddStretchSpacer(s: Sizer, proportion: real): (r: Sizer)
    ensures r.kind == s.kind && r.gap == s.gap
    ensures Size(r) == Size(s) + 1 && r.entries[..Size(s)] == s.entries
    ensures r.entries[Size(s)] == Entry(Empty, proportion, NoBorder, NoFlags)
  {
    AddElement(s, Empty, proportion, NoBorder, NoFlags)
  }

  /** The leaf widgets of a subtree in traversal order: the reference for `reparent` and `clear`. */
  function Leaves(s: Sizer): seq<nat>
    decreases s, 1
  {
    LeavesFrom(s, 0)
  }

  function LeavesFrom(s: Sizer, i: nat): seq<nat>
    requires i <= |s.entries|
    decreases s, 0, |s.entries| - i
  {
    if i == |s.entries| then [] else EntryLeaves(s.entries[i]) + LeavesFrom(s, i + 1)
  }

  function EntryLeaves(e: Entry): seq<nat>
    decreases e
  {
    match e.element
    case Widget(id, _) => [id]
    case Nested(child) => Leaves(child)
    case Empty => []
  }

  /** `reparent(parent)`: the `addChild` calls made on `parent`, appended to `added`. */
  function Reparent(s: Sizer, added: seq<nat>): (r: seq<nat>)
    ensures r == added + Leaves(s)
    decreases s, 1
  {
    ReparentFrom(s, 0, added)
  }

  function ReparentFrom(s: Sizer, i: nat, added: seq<nat>): (r: seq<nat>)
    requires i <= |s.entries|
    ensures r == added + LeavesFrom(s, i)
    decreases s, 0, |s.entries| - i
  {
    if i == |s.entries| then added
    else
      match s.entries[i].element
      case Widget(id, _) => ReparentFrom(s, i + 1, added + [id])
      case Nested(child) => ReparentFrom(s, i + 1, Reparent(child, added))
      case Empty => ReparentFrom(s, i + 1, added)
  }

  /** The events of `clear`: the `destroy` calls made on leaf widgets, and every nested
      sizer as its own `clear` leaves it, in the order those calls finish. */
  datatype ClearLog = ClearLog(destroyed: seq<nat>, emptied: seq<Sizer>)

  /** The nested sizers of a subtree, each emptied, in the order their `clear` calls
      finish: a nested sizer's own nested sizers come before it. The reference for
      `clear`. */
  function EmptiedSizers(s: Sizer): seq<Sizer>
    decreases s, 1
  {
    EmptiedFrom(s, 0)
  }

  function EmptiedFrom(s: Sizer, i: nat): seq<Sizer>
    requires i <= |s.entries|
    decreases s, 0, |s.entries| - i
  {
    if i == |s.entries| then []
    else
      match s.entries[i].element
      case Nested(child) => EmptiedSizers(child) + [child.(entries := [])] + EmptiedFrom(s, i + 1)
      case _ => EmptiedFrom(s, i + 1)
  }

  /** `clear()`: destroys every leaf widget, clears nested sizers, then empties the
      entries. Returns the emptied sizer and the events, appended to `log`. */
  function Clear(s: Sizer, log: ClearLog): (r: (Sizer, ClearLog))
    ensures r.0 == s.(entries := []) && Size(r.0) == 0
    ensures r.1.destroyed == log.destroyed + Leaves(s)
    ensures r.1.emptied == log.emptied + EmptiedSizers(s)
    decreases s, 1
  {
    (s.(entries := []), ClearFrom(s, 0, log))
  }

  function ClearFrom(s: Sizer, i: nat, log: ClearLog): (r: ClearLog)
    requires i <= |s.entries|
    ensures r.destroyed == log.destroyed + LeavesFrom(s, i)
    ensures r.emptied == log.emptied + EmptiedFrom(s, i)
    decreases s, 0, |s.entries| - i
  {
    if i == |s.entries| then log
    else
      match s.entries[i].element
      case Widget(id, _) => ClearFrom(s, i + 1, log.(destroyed := log.destroyed + [id]))
      case Nested(child) =>
        var c := Clear(child, log);
        var next := ClearLog(c.1.destroyed, c.1.emptied + [c.0]);
        assert next.emptied == log.emptied + (EmptiedSizers(child) + [child.(entries := [])]);
        ClearFrom(s, i + 1, next)
      case Empty => ClearFrom(s, i + 1, log)
  }
}

=== FILE: split.dfy ===
/** Properties of the running-remainder split `setRect` uses to share the spare
    main-axis space among proportional entries. */
module SplitFacts {
  import opened Geometry
  import opened Sizer

  /** The main-axis sizes `mains` gives to the proportional entries of `es`, summed. */
  function ProportionalShares(es: seq<Entry>, mains: seq<real>): real
    requires |mains| == |es|
  {
    if es == [] then 0.0
    else (if IsProportional(es[0].proportion) then mains[0] else 0.0) + ProportionalShares(es[1..], mains[1..])
  }

  /** Every weight is either exactly zero or clearly proportional (none in between). */
  predicate ZeroOrProportional(es: seq<Entry>)
  {
    forall i :: 0 <= i < |es| ==> es[i].proportion == 0.0 || IsProportional(es[i].proportion)
  }

  predicate HasProportional(es: seq<Entry>)
  {
    exists i :: 0 <= i < |es| && IsProportional(es[i].proportion)
  }

  lemma IntegralDifference(a: real, b: real)
    requires IsIntegral(a) && IsIntegral(b)
    ensures IsIntegral(a - b)
  {
    assert a - b == (a.Floor - b.Floor) as real;
  }

  lemma {:induction false} AllZeroTotal(es: seq<Entry>)
    requires ZeroOrProportional(es) && !HasProportional(es)
    ensures TotalProportion(es) == 0.0
  {
    if es != [] {
      assert !IsProportional(es[0].proportion);
      assert forall i :: 0 <= i < |es[1..]| ==> es[1..][i] == es[i + 1];
      AllZeroTotal(es[1..]);
    }
  }

  lemma {:induction false} NoProportionalNoShares(es: seq<Entry>, mains: seq<real>)
    requires |mains| == |es| && !HasProportional(es)
    ensures ProportionalShares(es, mains) == 0.0
  {
    if es != [] {
      assert !IsProportional(es[0].proportion);
      assert forall i :: 0 <= i < |es[1..]| ==> es[1..][i] == es[i + 1];
      NoProportionalNoShares(es[1..], mains[1..]);
    }
  }

  /** The split is exact: when every weight is zero or proportional, some entry is
      proportional, `total` is the sum of the weights and `spare` is a whole number,
      the proportional cells together take exactly `spare`. */
  lemma {:induction false} SplitConsumesSpare(axis: Axis, es: seq<Entry>, sizes: seq<Vec2>, spare: real, total: real)
    requires |sizes| == |es|
    requires ZeroOrProportional(es) && HasProportional(es)
    requires total == TotalProportion(es)
    requires IsIntegral(spare)
    ensures NonNegativeWeights(es)
    ensures ProportionalShares(es, MainSizes(axis, es, sizes, spare, total)) == spare
    decreases |es|
  {
    var rest := es[1..];
    assert forall i :: 0 <= i < |rest| ==> rest[i] == es[i + 1];
    assert NonNegativeWeights(es);
    var p := es[0].proportion;
    assert TotalProportion(rest) >= 0.0;
    var mains := MainSizes(axis, es, sizes, spare, total);
    if IsProportional(p) {
      var propSize := FloorShare(spare, p, total);
      assert mains == [propSize] + MainSizes(axis, rest, sizes[1..], spare - propSize, total - p);
      if HasProportional(rest) {
        IntegralDifference(spare, propSize);
        SplitConsumesSpare(axis, rest, sizes[1..], spare - propSize, total - p);
      } else {
        AllZeroTotal(rest);
        NoProportionalNoShares(rest, mains[1..]);
        assert total == p;
        WholeShare(spare, p);
      }
    } else {
      var j :| 0 <= j < |es| && IsProportional(es[j].proportion);
      assert j > 0 && rest[j - 1] == es[j];
      SplitConsumesSpare(axis, rest, sizes[1..], spare, total);
    }
  }

  lemma WholeShare(spare: real, p: real)
    requires p != 0.0 && IsIntegral(spare)
    ensures FloorShare(spare, p, p) == spare
  {
    ShareOfOwnWeight(spare, p);
  }

  lemma ShareOfOwnWeight(spare: real, p: real)
    requires p != 0.0
    ensures FloorShare(spare, p, p) == spare.Floor as real
  {
    assert spare * p / p == spare;
  }

  lemma FloorShareBounds(spare: real, p: real, total: real)
    requires spare >= 0.0 && 0.0 < p <= total
    ensures 0.0 <= FloorShare(spare, p, total) <= spare
  {
    assert p / total <= 1.0;
    assert spare * p / total == spare * (p / total);
    assert spare * (p / total) <= spare * 1.0;
  }

  /** A fixed entry's cell keeps the entry's own main-axis minimum size. */
  lemma {:induction false} FixedCellsKeepMinimum(axis: Axis, es: seq<Entry>, sizes: seq<Vec2>, spare: real, total: real)
    requires |sizes| == |es|
    requires NonNegativeWeights(es) && total >= TotalProportion(es)
    ensures forall i :: 0 <= i < |es| && !IsProportional(es[i].proportion) ==>
              MainSizes(axis, es, sizes, spare, total)[i] == Get(sizes[i], axis)
    decreases |es|
  {
    if es != [] {
      var rest := es[1..];
      assert forall i :: 0 <= i < |rest| ==> rest[i] == es[i + 1];
      assert TotalProportion(rest) >= 0.0;
      var p := es[0].proportion;
      var spare' := if IsProportional(p) then spare - FloorShare(spare, p, total) else spare;
      var total' := if IsProportional(p) then total - p else total;
      FixedCellsKeepMinimum(axis, rest, sizes[1..], spare', total');
      assert MainSizes(axis, es, sizes, spare, total)[1..] == MainSizes(axis, rest, sizes[1..], spare', total');
    }
  }

  /** Whatever the spare, even a negative one when the rectangle is smaller than the
      minimum, the cell of every proportional entry `i` is a whole number of pixels. */
  lemma {:induction false} SplitCellWhole(axis: Axis, es: seq<Entry>, sizes: seq<Vec2>, spare: real, total: real, i: nat)
    requires |sizes| == |es|
    requires NonNegativeWeights(es) && total >= TotalProportion(es)
    requires i < |es| && IsProportional(es[i].proportion)
    ensures IsIntegral(MainSizes(axis, es, sizes, spare, total)[i])
    decreases i
  {
    var rest := es[1..];
    assert forall k :: 0 <= k < |rest| ==> rest[k] == es[k + 1];
    assert TotalProportion(rest) >= 0.0;
    var p := es[0].proportion;
    var mains := MainSizes(axis, es, sizes, spare, total);
    if IsProportional(p) {
      var propSize := FloorShare(spare, p, total);
      if i > 0 {
        assert mains[i] == MainSizes(axis, rest, sizes[1..], spare - propSize, total - p)[i - 1];
        SplitCellWhole(axis, rest, sizes[1..], spare - propSize, total - p, i - 1);
      }
    } else {
      assert mains[i] == MainSizes(axis, rest, sizes[1..], spare, total)[i - 1];
      SplitCellWhole(axis, rest, sizes[1..], spare, total, i - 1);
    }
  }

  /** With a non-negative spare, the cell of every proportional entry `i` is non-negative. */
  lemma {:induction false} SplitCellNonNegative(axis: Axis, es: seq<Entry>, sizes: seq<Vec2>, spare: real, total: real, i: nat)
    requires |sizes| == |es|
    requires NonNegativeWeights(es) && total >= TotalProportion(es)
    requires spare >= 0.0
    requires i < |es| && IsProportional(es[i].proportion)
    ensures MainSizes(axis, es, sizes, spare, total)[i] >= 0.0
    decreases i
  {
    var rest := es[1..];
    assert forall k :: 0 <= k < |rest| ==> rest[k] == es[k + 1];
    assert TotalProportion(rest) >= 0.0;
    var p := es[0].proportion;
    var mains := MainSizes(axis, es, sizes, spare, total);
    if IsProportional(p) {
      var propSize := FloorShare(spare, p, total);
      FloorShareBounds(spare, p, total);
      if i > 0 {
        assert mains[i] == MainSizes(axis, rest, sizes[1..], spare - propSize, total - p)[i - 1];
        SplitCellNonNegative(axis, rest, sizes[1..], spare - propSize, total - p, i - 1);
      }
    } else {
      assert mains[i] == MainSizes(axis, rest, sizes[1..], spare, total)[i - 1];
      SplitCellNonNegative(axis, rest, sizes[1..], spare, total, i - 1);
    }
  }

  /** A non-negative spare is never overdrawn: the proportional cells together take at
      most `spare`. */
  lemma {:induction false} SplitWithinSpare(axis: Axis, es: seq<Entry>, sizes: seq<Vec2>, spare: real, total: real)
    requires |sizes| == |es|
    requires NonNegativeWeights(es) && total >= TotalProportion(es)
    requires spare >= 0.0
    ensures ProportionalShares(es, MainSizes(axis, es, sizes, spare, total)) <= spare
    decreases |es|
  {
    if es != [] {
      var rest := es[1..];
      assert forall i :: 0 <= i < |rest| ==> rest[i] == es[i + 1];
      assert TotalProportion(rest) >= 0.0;
      var p := es[0].proportion;
      var mains := MainSizes(axis, es, sizes, spare, total);
      if IsProportional(p) {
        var propSize := FloorShare(spare, p, total);
        FloorShareBounds(spare, p, total);
        assert mains == [propSize] + MainSizes(axis, rest, sizes[1..], spare - propSize, total - p);
        SplitWithinSpare(axis, rest, sizes[1..], spare - propSize, total - p);
      } else {
        assert mains == [Get(sizes[0], axis)] + MainSizes(axis, rest, sizes[1..], spare, total);
        SplitWithinSpare(axis, rest, sizes[1..], spare, total);
      }
    }
  }

  /** Two entries of weight 1 sharing a spare of 101: the first gets floor(101 / 2) = 50,
      the second the remaining 51, so no unit is dropped. */
  lemma EqualWeightsExample(es: seq<Entry>)
    requires es == [Entry(Empty, 1.0, NoBorder, NoFlags), Entry(Empty, 1.0, NoBorder, NoFlags)]
    ensures TotalProportion(es) == 2.0
    ensures MainSizes(X, es, [Zero, Zero], 101.0, TotalProportion(es)) == [50.0, 51.0]
  {
    var stretch := Entry(Empty, 1.0, NoBorder, NoFlags);
    assert es[1..] == [stretch];
    assert TotalProportion([stretch]) == 1.0;
    assert FloorShare(101.0, 1.0, 2.0) == 50.0;
    assert FloorShare(51.0, 1.0, 1.0) == 51.0;
    assert MainSizes(X, [stretch], [Zero], 51.0, 1.0) == [51.0];
  }

  /** Laid out in a rectangle exactly as long as its minimum size, a sizer gives each
      proportional entry the biggest per-unit minimum times its weight, not its own
      minimum: two weight-1 widgets of minimum widths 10 and 20 both get 20. */
  lemma MinimumRectExample(s: Sizer, rect: Rect)
    requires s == Sizer(Horizontal, 0.0, [Entry(Widget(0, Vec2(10.0, 0.0)), 1.0, NoBorder, NoFlags),
                                          Entry(Widget(1, Vec2(20.0, 0.0)), 1.0, NoBorder, NoFlags)])
    requires rect == Rect(Zero, Vec2(40.0, 0.0))
    ensures Get(MinimumSize(s), X) == Get(rect.Size(), X)
    ensures NonNegativeWeights(s.entries)
    ensures CellMainSizes(s, rect) == [20.0, 20.0]
  {
    var a := Entry(Widget(0, Vec2(10.0, 0.0)), 1.0, NoBorder, NoFlags);
    var b := Entry(Widget(1, Vec2(20.0, 0.0)), 1.0, NoBorder, NoFlags);
    var sizes := [Vec2(10.0, 0.0), Vec2(20.0, 0.0)];
    ExampleTotals(s.entries, a, b);
    ExampleSizes(s, a, b, sizes);
    ExampleLoop(a, b, sizes);
    assert MinimumState(s) == MinState(0.0, 20.0, 0.0);
    assert Get(ComputeMinimumSize(s, false), X) == 0.0;
    assert Get(MinimumSize(s), X) == 0.0 + 20.0 * 2.0;
    ExampleSplit(s.entries, b, sizes);
  }

  lemma ExampleTotals(es: seq<Entry>, a: Entry, b: Entry)
    requires es == [a, b] && a.proportion == 1.0 && b.proportion == 1.0
    ensures TotalProportion(es) == 2.0 && TotalProportion([b]) == 1.0
    ensures NonNegativeWeights(es)
  {
    assert es[1..] == [b];
    assert [b][1..] == [];
    assert TotalProportion([b]) == 1.0 + TotalProportion([]);
    assert TotalProportion(es) == 1.0 + TotalProportion([b]);
  }

  lemma ExampleSizes(s: Sizer, a: Entry, b: Entry, sizes: seq<Vec2>)
    requires s.entries == [a, b] && a.element == Widget(0, Vec2(10.0, 0.0)) && b.element == Widget(1, Vec2(20.0, 0.0))
    requires sizes == [Vec2(10.0, 0.0), Vec2(20.0, 0.0)]
    ensures EntrySizes(s) == sizes
  {
    assert EntrySizes(s)[0] == sizes[0];
    assert EntrySizes(s)[1] == sizes[1];
  }

  lemma ExampleLoop(a: Entry, b: Entry, sizes: seq<Vec2>)
    requires a == Entry(Widget(0, Vec2(10.0, 0.0)), 1.0, NoBorder, NoFlags)
    requires b == Entry(Widget(1, Vec2(20.0, 0.0)), 1.0, NoBorder, NoFlags)
    requires sizes == [Vec2(10.0, 0.0), Vec2(20.0, 0.0)]
    ensures MinLoop(X, 0.0, [a, b], sizes, true, StartState) == MinState(0.0, 20.0, 0.0)
  {
    var st1 := MinState(0.0, 10.0, 0.0);
    ExampleFirstStep(a);
    ExampleSecondStep(b, st1);
    assert [a, b][1..] == [b] && sizes[1..] == [Vec2(20.0, 0.0)];
    assert MinLoop(X, 0.0, [a, b], sizes, true, StartState) == MinLoop(X, 0.0, [b], [Vec2(20.0, 0.0)], false, st1);
    SingleEntryLoop(X, 0.0, b, Vec2(20.0, 0.0), false, st1);
  }

  lemma ExampleFirstStep(a: Entry)
    requires a == Entry(Widget(0, Vec2(10.0, 0.0)), 1.0, NoBorder, NoFlags)
    ensures MinStep(X, 0.0, a, Vec2(10.0, 0.0), true, StartState) == MinState(0.0, 10.0, 0.0)
  {
  }

  lemma ExampleSecondStep(b: Entry, st: MinState)
    requires b == Entry(Widget(1, Vec2(20.0, 0.0)), 1.0, NoBorder, NoFlags)
    requires st == MinState(0.0, 10.0, 0.0)
    ensures MinStep(X, 0.0, b, Vec2(20.0, 0.0), false, st) == MinState(0.0, 20.0, 0.0)
  {
  }

  /** The loop over one entry is one step. */
  lemma SingleEntryLoop(axis: Axis, gap: real, e: Entry, sz: Vec2, first: bool, st: MinState)
    ensures MinLoop(axis, gap, [e], [sz], first, st) == MinStep(axis, gap, e, sz, first, st)
  {
    assert [e][1..] == [] && [sz][1..] == [];
  }

  lemma ExampleSplit(es: seq<Entry>, b: Entry, sizes: seq<Vec2>)
    requires |es| == 2 && es[1] == b && es[0].proportion == 1.0 && b.proportion == 1.0 && |sizes| == 2
    requires TotalProportion(es) == 2.0 && TotalProportion([b]) == 1.0 && NonNegativeWeights(es)
    ensures MainSizes(X, es, sizes, 40.0, 2.0) == [20.0, 20.0]
  {
    assert es[1..] == [b];
    assert FloorShare(40.0, 1.0, 2.0) == 20.0;
    assert FloorShare(20.0, 1.0, 1.0) == 20.0;
    assert MainSizes(X, [b], sizes[1..], 20.0, 1.0) == [20.0] + MainSizes(X, [], [], 0.0, 0.0);
  }
}

=== FILE: tree.dfy ===
/** Properties that span the whole sizer tree: `setRect` reaches exactly the leaf
    widgets `reparent` and `clear` visit, places them on whole pixels, and the `add`
    operations change the leaves and the minimum size as expected. */
module TreeFacts {
  import opened Geometry
  import opened Sizer
  import opened MinimumSizeFacts

  /** The widgets of a sequence of `setRect` calls, in call order. */
  function WidgetsOf(ps: seq<Placement>): seq<nat>
  {
    if ps == [] then [] else [ps[0].widget] + WidgetsOf(ps[1..])
  }

  lemma {:induction false} WidgetsOfAppend(a: seq<Placement>, b: seq<Placement>)
    ensures WidgetsOf(a + b) == WidgetsOf(a) + WidgetsOf(b)
  {
    if a == [] {
      assert a + b == b;
    } else {
      assert (a + b)[1..] == a[1..] + b;
      WidgetsOfAppend(a[1..], b);
    }
  }

  /** Every placement puts its widget's top-left corner on whole pixels. */
  predicate Snapped(ps: seq<Placement>)
  {
    forall k :: 0 <= k < |ps| ==> IsIntegral(ps[k].rect.topLeft.x) && IsIntegral(ps[k].rect.topLeft.y)
  }

  // ---------------------------------------------------------------------------
  // setRect reaches exactly the leaf widgets
  // ---------------------------------------------------------------------------

  /** `setRect` calls `setRect` on exactly the leaf widgets, each once, in traversal
      order; nested sizers are recursed into, spacers place nothing. */
  lemma {:induction false} SetRectPlacesLeaves(s: Sizer, rect: Rect)
    requires ProportionsNonNegative(s)
    ensures WidgetsOf(SetRect(s, rect)) == Leaves(s)
    decreases s, 1
  {
    PlaceFromPlacesLeaves(s, CellsOf(s, rect), EntrySizes(s), 0);
  }

  lemma {:induction false} PlaceFromPlacesLeaves(s: Sizer, cells: seq<Rect>, sizes: seq<Vec2>, i: nat)
    requires ProportionsNonNegative(s)
    requires |cells| == |s.entries| && |sizes| == |s.entries| && i <= |s.entries|
    ensures WidgetsOf(PlaceFrom(s, cells, sizes, i)) == LeavesFrom(s, i)
    decreases s, 0, |s.entries| - i
  {
    if i < |s.entries| {
      PlaceInsidePlacesLeaves(s.entries[i], cells[i], sizes[i]);
      PlaceFromPlacesLeaves(s, cells, sizes, i + 1);
      WidgetsOfAppend(PlaceInside(s.entries[i], cells[i], sizes[i]), PlaceFrom(s, cells, sizes, i + 1));
    }
  }

  /** `placeInside` places the entry's widget, recurses into its sizer, or does nothing
      for a spacer. */
  lemma {:induction false} PlaceInsidePlacesLeaves(e: Entry, cell: Rect, minSize: Vec2)
    requires e.element.Nested? ==> ProportionsNonNegative(e.element.sizer)
    ensures WidgetsOf(PlaceInside(e, cell, minSize)) == EntryLeaves(e)
    ensures e.element.Empty? ==> PlaceInside(e, cell, minSize) == []
    decreases e
  {
    match e.element
    case Empty =>
    case Widget(id, _) =>
      assert WidgetsOf(PlaceInside(e, cell, minSize)) == [id] + WidgetsOf([]);
    case Nested(child) =>
      SetRectPlacesLeaves(child, PlacedRect(e.flags, cell, minSize));
  }

  // ---------------------------------------------------------------------------
  // Pixel snapping through the whole tree
  // ---------------------------------------------------------------------------

  /** Every widget of the subtree lands on whole-pixel coordinates, however fractional
      the rectangle or the minimum sizes are. */
  lemma {:induction false} SetRectSnapsToPixels(s: Sizer, rect: Rect)
    requires ProportionsNonNegative(s)
    ensures Snapped(SetRect(s, rect))
    decreases s, 1
  {
    PlaceFromSnaps(s, CellsOf(s, rect), EntrySizes(s), 0);
  }

  lemma {:induction false} PlaceFromSnaps(s: Sizer, cells: seq<Rect>, sizes: seq<Vec2>, i: nat)
    requires ProportionsNonNegative(s)
    requires |cells| == |s.entries| && |sizes| == |s.entries| && i <= |s.entries|
    ensures Snapped(PlaceFrom(s, cells, sizes, i))
    decreases s, 0, |s.entries| - i
  {
    if i < |s.entries| {
      var here := PlaceInside(s.entries[i], cells[i], sizes[i]);
      var later := PlaceFrom(s, cells, sizes, i + 1);
      PlaceInsideSnaps(s.entries[i], cells[i], sizes[i]);
      PlaceFromSnaps(s, cells, sizes, i + 1);
      assert forall k :: 0 <= k < |here + later| ==> (here + later)[k] == if k < |here| then here[k] else later[k - |here|];
    }
  }

  lemma {:induction false} PlaceInsideSnaps(e: Entry, cell: Rect, minSize: Vec2)
    requires e.element.Nested? ==> ProportionsNonNegative(e.element.sizer)
    ensures Snapped(PlaceInside(e, cell, minSize))
    decreases e
  {
    match e.element
    case Empty =>
    case Widget(id, _) =>
    case Nested(child) =>
      SetRectSnapsToPixels(child, PlacedRect(e.flags, cell, minSize));
  }

  // ---------------------------------------------------------------------------
  // Adding entries
  // ---------------------------------------------------------------------------

  lemma {:induction false} LeavesFromAppend(s: Sizer, e: Entry, i: nat)
    requires i <= |s.entries|
    ensures LeavesFrom(s.(entries := s.entries + [e]), i) == LeavesFrom(s, i) + EntryLeaves(e)
    decreases |s.entries| - i
  {
    var t := s.(entries := s.entries + [e]);
    if i == |s.entries| {
      assert LeavesFrom(t, i + 1) == [];
    } else {
      assert t.entries[i] == s.entries[i];
      LeavesFromAppend(s, e, i + 1);
    }
  }

  /** Adding an element adds its leaves after the existing ones: a widget adds itself,
      a nested sizer adds its own leaves, a spacer adds none. So `reparent` and `clear`
      visit the new element last. */
  lemma AddElementLeaves(s: Sizer, element: Element, proportion: real, border: Border, flags: Flags)
    ensures Leaves(AddElement(s, element, proportion, border, flags))
            == Leaves(s) + EntryLeaves(Entry(element, proportion, border, flags))
    ensures element.Widget? ==> Leaves(AddElement(s, element, proportion, border, flags)) == Leaves(s) + [element.id]
    ensures element.Nested? ==> Leaves(AddElement(s, element, proportion, border, flags)) == Leaves(s) + Leaves(element.sizer)
    ensures element.Empty? ==> Leaves(AddElement(s, element, proportion, border, flags)) == Leaves(s)
  {
    LeavesFromAppend(s, Entry(element, proportion, border, flags), 0);
  }

  lemma {:induction false} MinLoopAppend(axis: Axis, gap: real, es: seq<Entry>, sizes: seq<Vec2>, e: Entry, sz: Vec2, first: bool, st: MinState)
    requires |sizes| == |es|
    ensures MinLoop(axis, gap, es + [e], sizes + [sz], first, st)
            == MinStep(axis, gap, e, sz, first && es == [], MinLoop(axis, gap, es, sizes, first, st))
    decreases |es|
  {
    if es == [] {
      assert es + [e] == [e] && sizes + [sz] == [sz];
    } else {
      assert (es + [e])[1..] == es[1..] + [e];
      assert (sizes + [sz])[1..] == sizes[1..] + [sz];
      MinLoopAppend(axis, gap, es[1..], sizes[1..], e, sz, false, MinStep(axis, gap, es[0], sizes[0], first, st));
    }
  }

  lemma {:induction false} TotalProportionAppend(es: seq<Entry>, e: Entry)
    ensures TotalProportion(es + [e]) == TotalProportion(es) + e.proportion
  {
    if es != [] {
      assert (es + [e])[1..] == es[1..] + [e];
      TotalProportionAppend(es[1..], e);
    }
  }

  /** The minimum-loop totals after appending entry `e` are one more loop step on the old totals. */
  lemma AppendStep(s: Sizer, e: Entry)
    ensures MinimumState(s.(entries := s.entries + [e]))
            == MinStep(MainAxis(s.kind), s.gap, e, EntryMinimumSize(e), s.entries == [], MinimumState(s))
    ensures TotalProportion(s.entries + [e]) == TotalProportion(s.entries) + e.proportion
    ensures MinimumState(s).other >= 0.0 && MinimumState(s).biggestProportional >= 0.0
  {
    var t := s.(entries := s.entries + [e]);
    assert EntrySizes(t) == EntrySizes(s) + [EntryMinimumSize(e)];
    MinLoopAppend(MainAxis(s.kind), s.gap, s.entries, EntrySizes(s), e, EntryMinimumSize(e), true, StartState);
    TotalProportionAppend(s.entries, e);
    MinLoopCross(MainAxis(s.kind), s.gap, s.entries, EntrySizes(s), true, StartState);
    MinLoopBiggest(MainAxis(s.kind), s.gap, s.entries, EntrySizes(s), true, StartState);
  }

  /** One loop step over a spacer entry: only the main total grows, by the spacer's
      leading border plus the gap. */
  lemma SpacerStep(axis: Axis, gap: real, e: Entry, first: bool, st: MinState)
    requires st.other >= 0.0 && e.element == Empty && e.proportion == 0.0
    requires Trailing(e.border, axis) == 0.0
    requires Leading(e.border, CrossAxis(axis)) == 0.0 && Trailing(e.border, CrossAxis(axis)) == 0.0
    ensures MinStep(axis, gap, e, EntryMinimumSize(e), first, st)
            == st.(main := st.main + Leading(e.border, axis) + (if first then 0.0 else gap))
  {
  }

  /** One loop step over a borderless stretch spacer of weight `p`. */
  lemma StretchStep(axis: Axis, gap: real, p: real, first: bool, st: MinState)
    requires st.other >= 0.0 && st.biggestProportional >= 0.0
    ensures MinStep(axis, gap, Entry(Empty, p, NoBorder, NoFlags), Zero, first, st)
            == st.(main := st.main + (if first then 0.0 else gap))
  {
    if IsProportional(p) {
      assert 0.0 / p == 0.0;
    }
  }

  /** The loop totals after a spacer: its size and one more gap on the main axis, the
      same total weight. */
  lemma SpacerTotals(s: Sizer, size: real)
    ensures AddSpacer(s, size).kind == s.kind
    ensures MinimumState(AddSpacer(s, size))
            == MinimumState(s).(main := MinimumState(s).main + (size + (if s.entries == [] then 0.0 else s.gap)))
    ensures TotalProportion(AddSpacer(s, size).entries) == TotalProportion(s.entries) + 0.0
  {
    var t := AddSpacer(s, size);
    var e := t.entries[|s.entries|];
    assert t == s.(entries := s.entries + [e]);
    AppendStep(s, e);
    SpacerStep(MainAxis(s.kind), s.gap, e, s.entries == [], MinimumState(s));
  }

  /** A spacer of `size` lengthens the minimum main extent by `size`, plus a gap when it
      is not the first entry, and leaves the cross extent unchanged. */
  lemma AddSpacerMinimum(s: Sizer, size: real, includeProportional: bool)
    ensures Get(ComputeMinimumSize(AddSpacer(s, size), includeProportional), MainAxis(s.kind))
            == Get(ComputeMinimumSize(s, includeProportional), MainAxis(s.kind)) + size
               + (if s.entries == [] then 0.0 else s.gap)
    ensures Get(ComputeMinimumSize(AddSpacer(s, size), includeProportional), CrossAxis(MainAxis(s.kind)))
            == Get(ComputeMinimumSize(s, includeProportional), CrossAxis(MainAxis(s.kind)))
  {
    SpacerTotals(s, size);
    GrownMinimum(s, AddSpacer(s, size), size + (if s.entries == [] then 0.0 else s.gap), 0.0, includeProportional);
  }

  /** The loop totals after a stretch spacer: one more gap and `p` more total weight. */
  lemma StretchTotals(s: Sizer, p: real)
    ensures MinimumState(AddStretchSpacer(s, p))
            == MinimumState(s).(main := MinimumState(s).main + (if s.entries == [] then 0.0 else s.gap))
    ensures TotalProportion(AddStretchSpacer(s, p).entries) == TotalProportion(s.entries) + p
  {
    var t := AddStretchSpacer(s, p);
    var e := Entry(Empty, p, NoBorder, NoFlags);
    assert t == s.(entries := s.entries + [e]);
    AppendStep(s, e);
    StretchStep(MainAxis(s.kind), s.gap, p, s.entries == [], MinimumState(s));
  }

  // ---------------------------------------------------------------------------
  // Growth of the minimum size. GrownMinimum is the fact the add operations use:
  // any sizer `t` of the same kind whose loop totals exceed those of `s` by `grow`
  // on the main axis and by `p` in total weight has a minimum size larger by `grow`,
  // plus `p` times the biggest per-unit minimum when proportional entries are
  // included. The other members of this group are its steps, split by component
  // (main with and without the correction, cross) and by level (sizers, loop
  // totals, plain reals) so that each stays small for the solver.
  // ---------------------------------------------------------------------------

  lemma GrownMinimumWeighted(s: Sizer, t: Sizer, grow: real, p: real, extra: real)
    requires t.kind == s.kind
    requires MinimumState(t).main == MinimumState(s).main + grow
    requires MinimumState(t).biggestProportional == MinimumState(s).biggestProportional
    requires MinimumState(t).other == MinimumState(s).other
    requires TotalProportion(t.entries) == TotalProportion(s.entries) + p
    requires extra == MinimumState(s).biggestProportional * p
    ensures Get(ComputeMinimumSize(t, true), MainAxis(s.kind)) == Get(ComputeMinimumSize(s, true), MainAxis(s.kind)) + grow + extra
  {
    CorrectedGrowth(s.kind, MinimumState(s), MinimumState(t), TotalProportion(s.entries), TotalProportion(t.entries),
                    grow, p, extra, ComputeMinimumSize(s, true), ComputeMinimumSize(t, true));
  }

  lemma CorrectedGrowth(kind: SizerType, st: MinState, st': MinState, total: real, total': real, grow: real, p: real,
                        extra: real, v: Vec2, v': Vec2)
    requires st'.main == st.main + grow && st'.biggestProportional == st.biggestProportional
    requires total' == total + p && extra == st.biggestProportional * p
    requires v == Corrected(kind, st, total, true) && v' == Corrected(kind, st', total', true)
    ensures Get(v', MainAxis(kind)) == Get(v, MainAxis(kind)) + grow + extra
  {
    GrowthArithmetic(st.main, st'.main, grow, st.biggestProportional, st'.biggestProportional, total, total', p,
                     Get(v, MainAxis(kind)), Get(v', MainAxis(kind)));
  }

  lemma GrownMinimumFixed(s: Sizer, t: Sizer, grow: real, p: real)
    requires t.kind == s.kind
    requires MinimumState(t).main == MinimumState(s).main + grow
    requires MinimumState(t).biggestProportional == MinimumState(s).biggestProportional
    requires MinimumState(t).other == MinimumState(s).other
    requires TotalProportion(t.entries) == TotalProportion(s.entries) + p
    ensures Get(ComputeMinimumSize(t, false), MainAxis(s.kind)) == Get(ComputeMinimumSize(s, false), MainAxis(s.kind)) + grow
  {
    MinimumSizeParts(s, false);
    MinimumSizeParts(t, false);
  }

  lemma GrownMinimumCross(s: Sizer, t: Sizer, grow: real, p: real, includeProportional: bool)
    requires t.kind == s.kind
    requires MinimumState(t).main == MinimumState(s).main + grow
    requires MinimumState(t).biggestProportional == MinimumState(s).biggestProportional
    requires MinimumState(t).other == MinimumState(s).other
    requires TotalProportion(t.entries) == TotalProportion(s.entries) + p
    ensures Get(ComputeMinimumSize(t, includeProportional), CrossAxis(MainAxis(s.kind)))
            == Get(ComputeMinimumSize(s, includeProportional), CrossAxis(MainAxis(s.kind)))
  {
    MinimumSizeParts(s, includeProportional);
    MinimumSizeParts(t, includeProportional);
  }

  lemma GrownMinimum(s: Sizer, t: Sizer, grow: real, p: real, includeProportional: bool)
    requires t.kind == s.kind
    requires MinimumState(t).main == MinimumState(s).main + grow
    requires MinimumState(t).biggestProportional == MinimumState(s).biggestProportional
    requires MinimumState(t).other == MinimumState(s).other
    requires TotalProportion(t.entries) == TotalProportion(s.entries) + p
    ensures Get(ComputeMinimumSize(t, includeProportional), MainAxis(s.kind))
            == Get(ComputeMinimumSize(s, includeProportional), MainAxis(s.kind)) + grow
               + (if includeProportional then MinimumState(s).biggestProportional * p else 0.0)
    ensures Get(ComputeMinimumSize(t, includeProportional), CrossAxis(MainAxis(s.kind)))
            == Get(ComputeMinimumSize(s, includeProportional), CrossAxis(MainAxis(s.kind)))
  {
    if includeProportional {
      GrownMinimumWeighted(s, t, grow, p, MinimumState(s).biggestProportional * p);
    } else {
      GrownMinimumFixed(s, t, grow, p);
    }
    GrownMinimumCross(s, t, grow, p, includeProportional);
  }

  /** The arithmetic step: `b·(total + p) = b·total + b·p`, moved across the main totals. */
  lemma GrowthArithmetic(main: real, main': real, grow: real, b: real, b': real, total: real, total': real,
                         p: real, before: real, after: real)
    requires main' == main + grow && b' == b && total' == total + p
    requires before == main + b * total && after == main' + b' * total'
    ensures after == before + grow + b * p
  {
    Distribute(b, total, p);
  }

  /** A stretch spacer of weight `p` adds one gap (when not first) to the minimum main
      extent, plus, with proportional entries included, the biggest per-unit minimum
      times `p`; the cross extent is unchanged. */
  lemma AddStretchSpacerMinimum(s: Sizer, p: real, includeProportional: bool)
    ensures Get(ComputeMinimumSize(AddStretchSpacer(s, p), includeProportional), MainAxis(s.kind))
            == Get(ComputeMinimumSize(s, includeProportional), MainAxis(s.kind))
               + (if s.entries == [] then 0.0 else s.gap)
               + (if includeProportional then MinimumState(s).biggestProportional * p else 0.0)
    ensures Get(ComputeMinimumSize(AddStretchSpacer(s, p), includeProportional), CrossAxis(MainAxis(s.kind)))
            == Get(ComputeMinimumSize(s, includeProportional), CrossAxis(MainAxis(s.kind)))
  {
    StretchTotals(s, p);
    GrownMinimum(s, AddStretchSpacer(s, p), if s.entries == [] then 0.0 else s.gap, p, includeProportional);
  }

  // ---------------------------------------------------------------------------
  // Clearing
  // ---------------------------------------------------------------------------

  /** Every nested sizer `clear` reaches is left with no entries, however deep it sits. */
  lemma {:induction false} EmptiedAreEmpty(s: Sizer)
    ensures forall k :: 0 <= k < |EmptiedSizers(s)| ==> Size(EmptiedSizers(s)[k]) == 0
    decreases s, 1
  {
    EmptiedFromAreEmpty(s, 0);
  }

  lemma {:induction false} EmptiedFromAreEmpty(s: Sizer, i: nat)
    requires i <= |s.entries|
    ensures forall k :: 0 <= k < |EmptiedFrom(s, i)| ==> Size(EmptiedFrom(s, i)[k]) == 0
    decreases s, 0, |s.entries| - i
  {
    if i < |s.entries| {
      EmptiedFromAreEmpty(s, i + 1);
      match s.entries[i].element
      case Nested(child) => EmptiedAreEmpty(child);
      case _ =>
    }
  }
}
